=== FILE: README.md ===
# Gaphor model persistence, modelled in Dafny

This project models the persistence core of Gaphor, a UML modelling tool,
as its storage test module pins it down (`gaphor/storage/tests/test_storage.py`).
It has two parts.

* **The version gate `version_lower_than`** (`versions.dfy`). A version string
  is split on `.`. Each piece counts as the value of its leading run of digits,
  and an empty run counts as 0. Pieces after the third are ignored and missing
  pieces count as 0. The resulting (major, minor, patch) triple is compared
  lexicographically with the minimum. All twelve cases the tests assert are
  proved, and so are general round-trip lemmas: a formatted triple parses back
  to itself, with or without a pre-release tag or extra pieces.
* **Id-based save and load of the element graph.**
  * `elements.dfy` holds the data model. An element has a type tag, scalar
    attributes (the name, for instance), and single or multi-valued references
    by id (`subject`, `package`, the `diagram` of a presentation item). It also
    has a number of handles.
  * The factory's content is a `Graph`: elements by id, their creation order,
    and the connection table from handles to connected items.
  * `writer.dfy` defines what `save` writes. There is one record per element,
    presentation items included, and no canvas wrapper record. A reference to
    an element outside the factory is dropped, and save reports it.
  * `loader.dfy` defines what `load` makes of a file:
    * the version gate, against the minimum 0.17.0;
    * pass one, which builds the id table and fails on an unknown type or a
      repeated id;
    * pass two, which sets attributes and resolves references through the
      table, dropping unknown ids instead of failing;
    * pass three, which reconnects handles.
  * `round_trip.dfy` proves that load after save gives the saved content back.
    The only change is that references which pointed outside the factory are
    gone. The lemmas also cover what the load tests check: element counts per
    type, names, diagram items, subjects and connected association ends.
  * `factory.dfy` and `storage.dfy` are the stateful side:
    * `ElementFactory` is a class whose fields the operations update in place.
    * `Sink` is an output that `save` appends records to.
    * `Save` and `Load` are methods that walk the factory or the records in
      loops. Each is proved equal to the value-level definition it implements.

The minimum version 0.17.0 is the one named by the test that loads an old
model (`test_can_not_load_models_older_that_0_17_0`).

## Model

| member | source | states |
|---|---|---|
| Versions.Split | gaphor/storage/tests/test_storage.py:29-42 | splitting a version on `.` gives at least one piece, and no piece contains a dot |
| Versions.JoinSplit | gaphor/storage/tests/test_storage.py:29-42 | the pieces joined again with `.` give back the original string, so no character is lost or invented |
| Versions.SplitAtDot | gaphor/storage/tests/test_storage.py:29-42 | a piece followed by a dot is split off as the first piece |
| Versions.SplitJoin | gaphor/storage/tests/test_storage.py:29-42 | dot-free pieces joined with `.` split back into exactly those pieces |
| Versions.LeadingDigits | gaphor/storage/tests/test_storage.py:37-42 | the numeric part of a piece is its longest prefix of digits, so a tag such as `b123` or `rc2-dev0+…` is cut off |
| Versions.NatToString | gaphor/storage/tests/test_storage.py:31-42 | a number is written as a non-empty, dot-free run of digits |
| Versions.DigitsValueOfNatToString | gaphor/storage/tests/test_storage.py:31-42 | reading back the digits written for a number gives that number |
| Versions.LeadingDigitsOfDigitsThen | gaphor/storage/tests/test_storage.py:37-42 | the leading digits of a number's digits followed by a non-digit are exactly those digits |
| Versions.PieceValueWithSuffix | gaphor/storage/tests/test_storage.py:37-42 | a piece made of a number and a tag that does not start with a digit is worth that number |
| Versions.SplitFormat | gaphor/storage/tests/test_storage.py:31-42 | a formatted triple followed by a dot-free tag splits into its three pieces, the tag on the third |
| Versions.ParseFormatWithTag | gaphor/storage/tests/test_storage.py:35-42 | a formatted triple, with or without a tag on the patch piece, parses back to the triple |
| Versions.ParseFormatWithExtraPieces | gaphor/storage/tests/test_storage.py:38-41 | pieces after the third do not change the parsed triple |
| Versions.ParseMajorOnly | gaphor/storage/tests/test_storage.py:32 | a version with only a major number parses with minor and patch 0 |
| Versions.ParseMajorMinor | gaphor/storage/tests/test_storage.py:33 | a version with major and minor parses with patch 0 |
| Versions.ParseMajorMinorTag | gaphor/storage/tests/test_storage.py:39-40 | a tag in place of the patch piece counts as patch 0 |
| Versions.Parse | gaphor/storage/tests/test_storage.py:29-42 | defines the triple a version string denotes. Its contract is stated by Versions.ParseFormatWithTag, Versions.ParseFormatWithExtraPieces, Versions.ParseMajorOnly, Versions.ParseMajorMinor, Versions.ParseMajorMinorTag and the twelve Versions.ParseExample lemmas |
| Versions.ParseExample0_3_0 | gaphor/storage/tests/test_storage.py:31 | "0.3.0" parses to (0, 3, 0) |
| Versions.ParseExample0 | gaphor/storage/tests/test_storage.py:32 | "0" parses to (0, 0, 0) |
| Versions.ParseExample0_14 | gaphor/storage/tests/test_storage.py:33 | "0.14" parses to (0, 14, 0) |
| Versions.ParseExample0_14_1111 | gaphor/storage/tests/test_storage.py:34 | "0.14.1111" parses to (0, 14, 1111) |
| Versions.ParseExample0_15_0 | gaphor/storage/tests/test_storage.py:35 | "0.15.0" parses to (0, 15, 0) |
| Versions.ParseExample1_33_0 | gaphor/storage/tests/test_storage.py:36 | "1.33.0" parses to (1, 33, 0) |
| Versions.ParseExample0_15_0b123 | gaphor/storage/tests/test_storage.py:37 | "0.15.0b123" parses to (0, 15, 0) |
| Versions.ParseExample0_14_0_b1 | gaphor/storage/tests/test_storage.py:38 | "0.14.0.b1" parses to (0, 14, 0) |
| Versions.ParseExample0_15_b1 | gaphor/storage/tests/test_storage.py:39 | "0.15.b1" parses to (0, 15, 0) |
| Versions.ParseExample0_16_b1 | gaphor/storage/tests/test_storage.py:40 | "0.16.b1" parses to (0, 16, 0) |
| Versions.ParseExample0_15_0_b2 | gaphor/storage/tests/test_storage.py:41 | "0.15.0.b2" parses to (0, 15, 0) |
| Versions.ParseExample1_2_0rc2 | gaphor/storage/tests/test_storage.py:42 | "1.2.0rc2-dev0+7fad31a0" parses to (1, 2, 0) |
| Versions.VersionLowerThan | gaphor/storage/tests/test_storage.py:29-42 | defines `version_lower_than`: the parsed triple is lexicographically below the minimum. Its contract is stated by Versions.VersionCheckLower, Versions.VersionCheckNotLower, Versions.VersionCheckTags, Versions.VersionCheckExtraPieces and Versions.LessIsStrictTotalOrder |
| Versions.VersionCheckLower | gaphor/storage/tests/test_storage.py:31-34 | "0.3.0", "0", "0.14" and "0.14.1111" are lower than (0, 15, 0) |
| Versions.VersionCheckNotLower | gaphor/storage/tests/test_storage.py:35-36 | "0.15.0" and "1.33.0" are not lower than (0, 15, 0) |
| Versions.VersionCheckTags | gaphor/storage/tests/test_storage.py:37-42 | "0.15.0b123", "0.15.b1" and "0.16.b1" are not lower than (0, 15, 0), and "1.2.0rc2-dev0+7fad31a0" is not lower than (0, 17, 0) |
| Versions.VersionCheckExtraPieces | gaphor/storage/tests/test_storage.py:38-41 | "0.14.0.b1" is lower than (0, 15, 0), and "0.15.0.b2" is not lower than (0, 14, 99) |
| Versions.LessIsStrictTotalOrder | gaphor/storage/tests/test_storage.py:31-42 | the comparison is irreflexive, transitive, total and asymmetric: a version is lower than, equal to or newer than the minimum |
| Versions.ComparisonDepthMatters | gaphor/storage/tests/test_storage.py:31-42 | comparing (major, minor, patch) and comparing only (major, minor) disagree exactly when major and minor are equal and the patch is lower |
| Versions.VersionCheckIgnoringPatch | gaphor/storage/tests/test_storage.py:31-42 | all twelve asserted cases also hold when the patch level takes no part, so the tests do not fix the comparison depth |
| Elements.KeepKnown | gaphor/storage/tests/test_storage.py:264-273 | filtering a multi-valued reference keeps exactly the ids that are in the factory and no more entries than there were |
| Elements.KeepKnownAppend | gaphor/storage/tests/test_storage.py:264-273 | filtering distributes over concatenation |
| Elements.KeepKnownAllKnown | gaphor/storage/tests/test_storage.py:264-273 | a list whose ids are all known is kept unchanged |
| Elements.ResolveRefs | gaphor/storage/tests/test_storage.py:264-285 | only dropping happens, nothing is added. A reference whose ids are all known is kept unchanged. A single reference is kept exactly when its target is known. A collection is always kept, with exactly its unknown ids filtered out and its known ids in their order. Every reference left is known |
| Elements.ResolveRefsAllKnown | gaphor/storage/tests/test_storage.py:264-285 | references that are all known are left unchanged |
| Elements.ResolveRefsIdempotent | gaphor/storage/tests/test_storage.py:264-285 | resolving twice is resolving once |
| Elements.CleanElement | gaphor/storage/tests/test_storage.py:264-285 | cleaning an element keeps its type, attributes and handles. Its known references survive unchanged even when another of its references dangles. A collection keeps its known entries, and a single reference survives exactly when its target is known. No reference is added, the result dangles nowhere, and an element with nothing unknown is unchanged |
| Elements.CleanConnections | gaphor/storage/tests/test_storage.py:215-219 | dropping connections to outside items keeps a part of the connection table, unchanged where kept, that points only at items of the factory, and all of it when nothing points outside |
| Elements.Clean | gaphor/storage/tests/test_storage.py:264-285 | dropping unknown references keeps every element id and the creation order |
| Elements.CleanIsClosed | gaphor/storage/tests/test_storage.py:264-285 | after dropping unknown references nothing points outside the factory. The factory invariant is kept. A content with nothing to drop is unchanged |
| Elements.OfType | gaphor/storage/tests/test_storage.py:84-90 | `lselect(T)` lists exactly the elements of type T, never more entries than there are elements |
| Writer.HandleTargets | gaphor/storage/tests/test_storage.py:215-219 | an item's record lists, for each of its handles, that handle's persisted connected item |
| Writer.Records | gaphor/storage/tests/test_storage.py:55-72 | one record per given element, in the given order |
| Writer.DanglesIffNotClosed | gaphor/storage/tests/test_storage.py:264-285 | save reports an unknown reference exactly when some element references, or is connected to, something outside the factory |
| Writer.SaveDocument | gaphor/storage/tests/test_storage.py:44-72 | defines the file `save` writes. Its contract is stated by Writer.SaveWritesEveryElementOnce, Writer.SaveReferencesStayInside, Writer.SaveOmitsOutsideElement and Writer.DanglesIffNotClosed, and Storage.Save is proved to write it |
| Writer.SaveWritesEveryElementOnce | gaphor/storage/tests/test_storage.py:55-72 | the file carries the version and one record per element, presentation items included, in creation order, with its type, attributes and handle count. No id is written twice and every record is an element of the factory, so there is no canvas wrapper record |
| Writer.SaveReferencesStayInside | gaphor/storage/tests/test_storage.py:264-285 | every id a written record mentions is an element of the factory |
| Writer.SaveOmitsOutsideElement | gaphor/storage/tests/test_storage.py:264-285 | an element that references an element outside the factory is still written, and the outside element's id appears in no record. When the element holds a single reference to the outside element (the invalid-collection test, lines 264-273), the factory is not closed, so save reports an unknown reference |
| Writer.SaveWithInvalidReference | gaphor/storage/tests/test_storage.py:276-285 | a factory element whose collection holds an element outside the factory is written, the outside id appears in no record, and the factory is not closed, so save reports an unknown reference |
| Loader.Ids | gaphor/storage/tests/test_storage.py:199-214 | the ids of the records, one per record, in file order |
| Loader.Instantiate | gaphor/storage/tests/test_storage.py:201-206 | defines pass one of `load`. Its contract is stated by Loader.InstantiateOk, Loader.InstantiateTable and Loader.InstantiateStopsAtFirstError, and Storage.InstantiatePass is proved to compute it |
| Loader.InstantiateTable | gaphor/storage/tests/test_storage.py:201-206 | a successful pass one gives a table holding exactly the file's ids, each mapped to a fresh element of its record's type without attributes |
| Loader.InstantiateOk | gaphor/storage/tests/test_storage.py:201-206 | pass one succeeds exactly when every type is known to the modelling language and no id repeats |
| Loader.InstantiateStopsAtFirstError | gaphor/storage/tests/test_storage.py:201-206 | once a prefix of the file fails, the whole of pass one fails with that same error |
| Loader.Populate | gaphor/storage/tests/test_storage.py:112-138 | defines pass two of `load`. Its contract is stated by Loader.PopulateAt, and Storage.PopulatePass is proved to compute it |
| Loader.PopulateAt | gaphor/storage/tests/test_storage.py:112-138 | pass two gives every record's element under its id, with its attributes and its references resolved against the file's ids |
| Loader.Reconnect | gaphor/storage/tests/test_storage.py:215-219 | defines pass three of `load`. Its contract is stated by Loader.ReconnectAt, and Storage.ReconnectPass is proved to compute it |
| Loader.ReconnectAt | gaphor/storage/tests/test_storage.py:215-219 | after pass three a handle is connected exactly when its record persisted a connected item that is in the file, and it is connected to that item |
| Loader.LoadDocument | gaphor/storage/tests/test_storage.py:201-206 | defines `load` on a parsed file. Its contract is stated by Loader.LoadRejectsOldVersion, Loader.LoadedShape, Loader.LoadedGraphKeepsRecords, Loader.LoadedGraphIsValid, Loader.LoadedGraphIsClosed and RoundTrip.SaveLoadRoundTrip, and Storage.Load is proved to carry it out |
| Loader.LoadRejectsOldVersion | gaphor/storage/tests/test_storage.py:248-261 | a file older than 0.17.0 is rejected with a version error before anything is instantiated |
| Loader.LoadedShape | gaphor/storage/tests/test_storage.py:248-261 | a successful load implies the version passed the gate, the ids are distinct and every type is known, and its result is what the three passes compute over the file's ids |
| Loader.LoadedGraphKeepsRecords | gaphor/storage/tests/test_storage.py:84-90 | after load, the creation order is the file order, and each record's element has its type, attributes and handle count |
| Loader.LoadedGraphIsValid | gaphor/storage/tests/test_storage.py:201-206 | the loaded content satisfies the factory invariant |
| Loader.LoadedGraphIsClosed | gaphor/storage/tests/test_storage.py:264-285 | after load no reference or connection points outside the loaded elements |
| RoundTrip.SavedIds | gaphor/storage/tests/test_storage.py:199-214 | the saved records' ids, in order, are the factory's creation order and are distinct |
| RoundTrip.SavedElements | gaphor/storage/tests/test_storage.py:84-118 | loading the saved records gives each element back with its references resolved as save left them |
| RoundTrip.SavedConnectionAt | gaphor/storage/tests/test_storage.py:215-219 | after loading the saved records a handle is connected exactly when it was connected to an item of the factory, and to the same item |
| RoundTrip.SavedConnections | gaphor/storage/tests/test_storage.py:215-219 | loading the saved records gives back exactly the connections to items of the factory |
| RoundTrip.SavedFileHasNoUnknownReference | gaphor/storage/tests/test_storage.py:264-285 | no record of a saved file mentions an id outside it |
| RoundTrip.SaveLoadRoundTrip | gaphor/storage/tests/test_storage.py:81-102 | load after save succeeds and gives the saved content minus only the references that pointed outside it, without reporting an unknown reference |
| RoundTrip.SaveLoadRoundTripExact | gaphor/storage/tests/test_storage.py:81-102 | for content with no outside references, load after save gives exactly the saved content |
| RoundTrip.RoundTripKeepsElements | gaphor/storage/tests/test_storage.py:84-90 | after save and reload (also lines 104-117, 130-138 and 155-161) there are as many elements, of every type as many, in the same creation order (so `lselect()[0]` at line 132 picks the same element) and under the same ids, each with its type and attributes, and in particular the same name, a whitespace-padded one too (line 138) |
| RoundTrip.OfTypeSameTags | gaphor/storage/tests/test_storage.py:84-90 | `lselect(T)` depends only on the elements' types |
| RoundTrip.CleanKeepsSingleRef | gaphor/storage/tests/test_storage.py:112-114 | a single reference survives exactly when its target is in the factory |
| RoundTrip.RoundTripKeepsDiagramItems | gaphor/storage/tests/test_storage.py:163-164 | every diagram has the same items after save and reload (also line 124) |
| RoundTrip.RoundTripKeepsSubjects | gaphor/storage/tests/test_storage.py:112-126 | every element has the same presentation items after save and reload, each with its subject pointing back to that element's id |
| RoundTrip.RoundTripKeepsConnections | gaphor/storage/tests/test_storage.py:215-219 | after save and reload a handle is connected exactly when it was connected to an item of the factory, and to the same item |
| RoundTrip.RoundTripAssociationEnds | gaphor/storage/tests/test_storage.py:174-219 | an association whose head and tail were connected to two different items is, after save and reload, connected at both ends to those same two different items |
| Factory.ElementFactory.constructor | gaphor/storage/tests/test_storage.py:201-202 | a new factory is empty |
| Factory.ElementFactory.Create | gaphor/storage/tests/test_storage.py:46-49 | creating adds one element of the type, without attributes or references, at the end of the creation order, keeping the factory invariant |
| Factory.ElementFactory.SetAttribute | gaphor/storage/tests/test_storage.py:98 | setting a name (also line 133) changes that attribute of that element only |
| Factory.ElementFactory.SetReference | gaphor/storage/tests/test_storage.py:264-285 | setting a reference changes that reference of that element only, and its target may lie outside the factory. The opposite end is not updated (see Left out) |
| Factory.ElementFactory.ConnectHandle | gaphor/storage/tests/test_storage.py:184-185 | connecting a handle records its connected item and changes nothing else |
| Factory.ElementFactory.Flush | gaphor/storage/tests/test_storage.py:201-202 | after a flush the factory is empty |
| Factory.ElementFactory.Select | gaphor/storage/tests/test_storage.py:84-116 | the loop returns `lselect(T)`: the elements of type T in creation order |
| Factory.OfTypeDistinct | gaphor/storage/tests/test_storage.py:84-90 | `lselect(T)` lists no element twice |
| Storage.Sink.constructor | gaphor/storage/tests/test_storage.py:17-18 | a new sink holds nothing |
| Storage.Sink.Write | gaphor/storage/tests/test_storage.py:20-21 | writing appends to what the sink holds |
| Storage.Sink.WriteHeader | gaphor/storage/tests/test_storage.py:20-21 | the header records the version and writes no element |
| Storage.WriteElements | gaphor/storage/tests/test_storage.py:52-58 | the loop appends one record per element, in order, and reports whether one of them references something outside |
| Storage.Save | gaphor/storage/tests/test_storage.py:52-72 | save (also lines 269-273) appends exactly the file's records to the sink and reports an unknown reference exactly when the factory references something outside itself |
| Storage.InstantiatePass | gaphor/storage/tests/test_storage.py:204-206 | the pass-one loop computes the id table or the first fatal error, and on success the file order of ids |
| Storage.PopulatePass | gaphor/storage/tests/test_storage.py:204-206 | the pass-two loop sets every element's attributes and resolved references, and notes whether a record mentions an unknown id |
| Storage.FirstConnectionsAt | gaphor/storage/tests/test_storage.py:215-219 | handle by handle, exactly the handles whose persisted connected item is in the file get connected, to that item |
| Storage.FirstConnectionsAll | gaphor/storage/tests/test_storage.py:215-219 | after all its handles, the per-handle reconnection equals the record's connections |
| Storage.ReconnectRecord | gaphor/storage/tests/test_storage.py:215-219 | the inner pass-three loop adds one record's connections |
| Storage.ReconnectPass | gaphor/storage/tests/test_storage.py:215-219 | the pass-three loop rebuilds the connections of all records |
| Storage.PopulateAndReconnect | gaphor/storage/tests/test_storage.py:204-206 | passes two and three give the loaded elements and connections |
| Storage.Load | gaphor/storage/tests/test_storage.py:204-206 | a successful load (a failing one: lines 248-261) replaces the factory's content with the loaded one and returns the unknown-reference flag. A failed load returns the error (an old version, an unknown type, a repeated id) and leaves the factory as it was. The invariant is kept either way |
| Storage.SaveFlushLoad | gaphor/storage/tests/test_storage.py:194-206 | saving, flushing and loading back leaves the factory with its former content minus only outside references, and the load succeeds without reporting an unknown reference |

## Left out

- Geometry is not modelled: transformation matrices, handle positions and `update_now` (test_storage.py lines 99, 119-121, 146-150, 169-170 and 177-191). It is floating-point canvas state.
- The XML text of the file is not modelled: element and attribute syntax, escaping, and the byte-identical reproduction of `simple-items.gaphor` (lines 221-246). The model writes records, not characters. The fixture files are not part of this model.
- Only the connected item of a connection is modelled. Its ports, callbacks and constraint solving are not.
- Logging text is not modelled. "Model has unknown reference" becomes a boolean result of `Save` and `Load`.
- File opening and reading are left out. A file is already a parsed `Document`.
- Id generation is a parameter: `Factory.ElementFactory.Create` takes the fresh id as an argument instead of generating a UUID.
- Presentation items are factory elements with a `diagram` reference. The items' canvas parent/child hierarchy is left out.
- Storage.Load: the model replaces the factory's content instead of adding to it. The model-file test (test_storage.py lines 221-246) loads into a factory that already holds the diagram created at set-up, and then requires the re-saved file to equal the loaded one. That only holds if the load replaces the content. It also builds the new content before changing anything, so a fatal error leaves the factory as it was. The original may leave a partially populated factory; callers are expected to flush it.
- Factory.ElementFactory.SetReference: opposite association ends are not kept in sync. Setting `c.package = p` in the original also fills the package's collection, and the model sets one end only. The invalid-reference test (lines 276-285) is modelled by a factory element whose collection holds the outside id, as `Writer.SaveWithInvalidReference` states.
- Loader.LoadDocument: the minimum version 0.17.0 comes from the name of the test that rejects an old model. The rejected file itself is not part of this model, so the model only proves that a version lower than 0.17.0 is rejected.
- Loader.Instantiate: a repeated id makes the load fail with `DuplicateId`. The tests never show a file with a repeated id. Ids are unique within a model file, so the model treats such a file as malformed instead of guessing which record would win.
- Versions.VersionLowerThan: the patch level takes part in the comparison. The tests do not settle this, and `Versions.ComparisonDepthMatters` and `Versions.VersionCheckIgnoringPatch` state where the other choice would differ.

=== FILE: elements.dfy ===
/** The in-memory element graph the storage module saves and loads: elements
    owned by the element factory, identified by id, with scalar attributes,
    references to other elements by id, and, for diagram items, handles that
    may be connected to other items. */
module Elements {
  import opened Wrappers

  type Id = string
  type TypeTag = string

  /** The value of a reference attribute: one element (such as `package` or
      `subject`) or an ordered collection of elements (such as `ownedType`). */
  datatype RefValue = Single(target: Id) | Many(targets: seq<Id>)

  /** Handle `index` of diagram item `item`. */
  datatype Handle = Handle(item: Id, index: nat)

  /** One element: its type tag (the record tag in a model file), its scalar
      attributes (the name among them), its references and its number of
      handles (zero for everything but line-like diagram items). */
  datatype Element = Element(
    tag: TypeTag,
    attributes: map<string, string>,
    refs: map<string, RefValue>,
    handleCount: nat)

  /** The factory's content: the elements by id, the order they were created
      in, and the connection of each connected handle to an item. */
  datatype Graph = Graph(
    elements: map<Id, Element>,
    order: seq<Id>,
    connections: map<Handle, Id>)

  /** The reference that makes an element a presentation item of a diagram. */
  const DiagramRef: string := "diagram"
  /** The reference from a presentation item to the element it shows. */
  const SubjectRef: string := "subject"
  /** The attribute holding an element's name. */
  const NameAttr: string := "name"

  predicate Distinct(ids: seq<Id>) {
    forall i, j :: 0 <= i < j < |ids| ==> ids[i] != ids[j]
  }

  /** The factory's invariant: the creation order lists every element once,
      and only handles that exist are connected. */
  ghost predicate Valid(g: Graph) {
    && Distinct(g.order)
    && (forall x :: x in g.elements <==> x in g.order)
    && (forall h :: h in g.connections ==>
          h.item in g.elements && h.index < g.elements[h.item].handleCount)
  }

  // ---------------------------------------------------------------------------
  // References and the set of ids they may point to

  /** The ids of `ids` that are in `known`, in their order. */
  function KeepKnown(ids: seq<Id>, known: set<Id>): (r: seq<Id>)
    ensures |r| <= |ids|
    ensures forall x :: x in r <==> x in ids && x in known
  {
    if ids == [] then []
    else (if ids[0] in known then [ids[0]] else []) + KeepKnown(ids[1..], known)
  }

  /** Filtering keeps the order: filtering a concatenation is concatenating
      the filtered parts. */
  lemma {:induction false} KeepKnownAppend(a: seq<Id>, b: seq<Id>, known: set<Id>)
    ensures KeepKnown(a + b, known) == KeepKnown(a, known) + KeepKnown(b, known)
  {
    if a != [] {
      KeepKnownAppend(a[1..], b, known);
      assert (a + b)[1..] == a[1..] + b;
    } else {
      assert a + b == b;
    }
  }

  /** Filtering a collection whose ids are all known changes nothing. */
  lemma {:induction false} KeepKnownAllKnown(ids: seq<Id>, known: set<Id>)
    requires forall i :: 0 <= i < |ids| ==> ids[i] in known
    ensures KeepKnown(ids, known) == ids
  {
    if ids != [] {
      KeepKnownAllKnown(ids[1..], known);
    }
  }

  predicate RefKnown(v: RefValue, known: set<Id>) {
    match v
    case Single(t) => t in known
    case Many(ts) => forall i :: 0 <= i < |ts| ==> ts[i] in known
  }

  predicate RefsKnown(refs: map<string, RefValue>, known: set<Id>) {
    forall a :: a in refs ==> RefKnown(refs[a], known)
  }

  /** What is left of a reference once the ids outside `known` are dropped:
      a single reference to an unknown element is dropped as a whole, an
      unknown entry of a collection is dropped from it. */
  function ResolveRef(v: RefValue, known: set<Id>): Option<RefValue> {
    match v
    case Single(t) => if t in known then Some(v) else None
    case Many(ts) => Some(Many(KeepKnown(ts, known)))
  }

  /** The references of an element with every id outside `known` dropped and
      every other one kept: the lookup-or-drop of both save and load. */
  function ResolveRefs(refs: map<string, RefValue>, known: set<Id>): (r: map<string, RefValue>)
    ensures r.Keys <= refs.Keys
    ensures RefsKnown(r, known)
    ensures forall a :: a in refs && RefKnown(refs[a], known) ==> a in r && r[a] == refs[a]
    ensures forall a :: a in refs && refs[a].Many? ==> a in r && r[a] == Many(KeepKnown(refs[a].targets, known))
    ensures forall a :: a in refs && refs[a].Single? ==> (a in r <==> refs[a].target in known)
    ensures forall a :: a in r && r[a].Single? ==> r[a] == refs[a]
  {
    forall a | a in refs && RefKnown(refs[a], known) && refs[a].Many?
      ensures ResolveRef(refs[a], known) == Some(refs[a])
    {
      KeepKnownAllKnown(refs[a].targets, known);
    }
    map a | a in refs && ResolveRef(refs[a], known).Some? :: ResolveRef(refs[a], known).value
  }

  /** Resolving references that all point to known ids changes nothing. */
  lemma ResolveRefsAllKnown(refs: map<string, RefValue>, known: set<Id>)
    requires RefsKnown(refs, known)
    ensures ResolveRefs(refs, known) == refs
  {
    assert ResolveRefs(refs, known).Keys == refs.Keys;
  }

  /** Resolving twice against the same ids is resolving once. */
  lemma ResolveRefsIdempotent(refs: map<string, RefValue>, known: set<Id>)
    ensures ResolveRefs(ResolveRefs(refs, known), known) == ResolveRefs(refs, known)
  {
    var once := ResolveRefs(refs, known);
    var twice := ResolveRefs(once, known);
    assert twice.Keys == once.Keys;
  }

  // ---------------------------------------------------------------------------
  // Closed graphs and cleaning

  /** Every reference and every handle connection points into the graph. */
  predicate Closed(g: Graph) {
    && (forall x :: x in g.elements ==> RefsKnown(g.elements[x].refs, g.elements.Keys))
    && (forall h :: h in g.connections ==> g.connections[h] in g.elements)
  }

  /** An element whose references to ids outside the graph are dropped. */
  function CleanElement(e: Element, known: set<Id>): (r: Element)
    ensures r.tag == e.tag && r.attributes == e.attributes && r.handleCount == e.handleCount
    ensures RefsKnown(r.refs, known)
    ensures forall a :: a in e.refs && RefKnown(e.refs[a], known) ==> a in r.refs && r.refs[a] == e.refs[a]
    ensures forall a :: a in e.refs && e.refs[a].Many? ==>
              a in r.refs && r.refs[a] == Many(KeepKnown(e.refs[a].targets, known))
    ensures forall a :: a in e.refs && e.refs[a].Single? ==> (a in r.refs <==> e.refs[a].target in known)
    ensures r.refs.Keys <= e.refs.Keys
    ensures RefsKnown(e.refs, known) ==> r == e
  {
    if RefsKnown(e.refs, known) then
      ResolveRefsAllKnown(e.refs, known);
      e.(refs := ResolveRefs(e.refs, known))
    else e.(refs := ResolveRefs(e.refs, known))
  }

  /** The elements of the graph, each with its dangling references dropped. */
  function CleanElements(g: Graph): map<Id, Element> {
    map x | x in g.elements :: CleanElement(g.elements[x], g.elements.Keys)
  }

  /** The connections of the graph to items inside it: a part of the
      connection table that points only inside the graph, and all of it when
      nothing points outside. */
  function CleanConnections(g: Graph): (r: map<Handle, Id>)
    ensures r.Keys <= g.connections.Keys
    ensures forall h :: h in r ==> r[h] == g.connections[h] && r[h] in g.elements
    ensures Closed(g) ==> r == g.connections
  {
    var r := map h | h in g.connections && g.connections[h] in g.elements :: g.connections[h];
    assert Closed(g) ==> r.Keys == g.connections.Keys;
    r
  }

  /** The graph with every reference and connection that points outside it
      dropped; elements, attributes and order stay. */
  function Clean(g: Graph): (r: Graph)
    ensures r.elements.Keys == g.elements.Keys && r.order == g.order
  {
    Graph(CleanElements(g), g.order, CleanConnections(g))
  }

  /** Cleaning keeps the factory invariant and leaves nothing dangling, and a
      graph with nothing dangling is its own cleaning. */
  lemma CleanIsClosed(g: Graph)
    ensures Closed(Clean(g))
    ensures Valid(g) ==> Valid(Clean(g))
    ensures Closed(g) ==> Clean(g) == g
  {
    var r := Clean(g);
    if Closed(g) {
      assert r.elements == g.elements;
      assert r.connections == g.connections;
    }
  }

  // ---------------------------------------------------------------------------
  // Queries the tests make

  /** The ids of `ids` whose element has type `tag`, in order (`lselect(T)`). */
  function OfType(elements: map<Id, Element>, ids: seq<Id>, tag: TypeTag): (r: seq<Id>)
    ensures forall x :: x in r <==> x in ids && x in elements && elements[x].tag == tag
    ensures |r| <= |ids|
  {
    if ids == [] then []
    else
      var last := ids[|ids| - 1];
      OfType(elements, ids[..|ids| - 1], tag)
        + (if last in elements && elements[last].tag == tag then [last] else [])
  }

  /** The number of elements of a type (`len(lselect(T))`). */
  function Count(g: Graph, tag: TypeTag): nat {
    |OfType(g.elements, g.order, tag)|
  }

  /** The items of diagram `d` (`d.get_all_items()`). */
  function ItemsOf(g: Graph, d: Id): set<Id> {
    set x | x in g.elements && DiagramRef in g.elements[x].refs
                            && g.elements[x].refs[DiagramRef] == Single(d)
  }

  /** The presentation items showing element `x` (`x.presentation`). */
  function PresentationOf(g: Graph, x: Id): set<Id> {
    set y | y in g.elements && SubjectRef in g.elements[y].refs
                            && g.elements[y].refs[SubjectRef] == Single(x)
  }
}

=== FILE: factory.dfy ===
/** The element factory the storage module saves from and loads into: it
    owns the elements by id, remembers their creation order and holds the
    connection table of the diagrams' handles. */
module Factory {
  import opened Elements

  class ElementFactory {
    var elements: map<Id, Element>
    var order: seq<Id>
    var connections: map<Handle, Id>

    /** The factory's content as a value. */
    function Content(): Graph
      reads this
    {
      Graph(elements, order, connections)
    }

    ghost predicate Valid()
      reads this
    {
      Elements.Valid(Content())
    }

    /** An empty factory. */
    constructor ()
      ensures Valid()
      ensures Content() == Graph(map[], [], map[])
    {
      elements, order, connections := map[], [], map[];
    }

    /** `create(T)`: a new element of type `tag`, without attributes or
        references, with `handleCount` unconnected handles. The factory makes
        up a fresh id; here the id is given and must be fresh. */
    method Create(id: Id, tag: TypeTag, handleCount: nat)
      requires Valid()
      requires id !in elements
      modifies this
      ensures Valid()
      ensures elements == old(elements)[id := Element(tag, map[], map[], handleCount)]
      ensures order == old(order) + [id]
      ensures connections == old(connections)
    {
      elements := elements[id := Element(tag, map[], map[], handleCount)];
      order := order + [id];
    }

    /** Setting a scalar attribute, such as the name, of an element. */
    method SetAttribute(id: Id, name: string, value: string)
      requires Valid()
      requires id in elements
      modifies this
      ensures Valid()
      ensures elements == old(elements)[id := old(elements)[id].(attributes := old(elements)[id].attributes[name := value])]
      ensures order == old(order) && connections == old(connections)
    {
      var e := elements[id];
      elements := elements[id := e.(attributes := e.attributes[name := value])];
    }

    /** Setting a reference of an element. The target need not belong to the
        factory: an element created outside it can be referenced too, which
        is how a model gets an unknown reference. */
    method SetReference(id: Id, name: string, value: RefValue)
      requires Valid()
      requires id in elements
      modifies this
      ensures Valid()
      ensures elements == old(elements)[id := old(elements)[id].(refs := old(elements)[id].refs[name := value])]
      ensures order == old(order) && connections == old(connections)
    {
      var e := elements[id];
      elements := elements[id := e.(refs := e.refs[name := value])];
    }

    /** Connecting a handle of an item to another item of the factory. */
    method ConnectHandle(h: Handle, target: Id)
      requires Valid()
      requires h.item in elements && h.index < elements[h.item].handleCount
      requires target in elements
      modifies this
      ensures Valid()
      ensures connections == old(connections)[h := target]
      ensures elements == old(elements) && order == old(order)
    {
      connections := connections[h := target];
    }

    /** `flush()`: removes every element. */
    method Flush()
      modifies this
      ensures Valid()
      ensures Content() == Graph(map[], [], map[])
    {
      elements, order, connections := map[], [], map[];
    }

    /** `lselect(T)`: the elements of type `tag`, in creation order. */
    method Select(tag: TypeTag) returns (ids: seq<Id>)
      ensures ids == OfType(elements, order, tag)
    {
      ids := [];
      var i := 0;
      while i < |order|
        invariant 0 <= i <= |order|
        invariant ids == OfType(elements, order[..i], tag)
      {
        var x := order[i];
        assert order[..i + 1][..i] == order[..i];
        if x in elements && elements[x].tag == tag {
          ids := ids + [x];
        }
        i := i + 1;
      }
      assert order[..|order|] == order;
    }
  }

  /** The ids `lselect(T)` returns are exactly the elements of type `tag`, each
      once, so their number is the number of elements of that type. */
  lemma {:induction false} OfTypeDistinct(elements: map<Id, Element>, ids: seq<Id>, tag: TypeTag)
    requires Distinct(ids)
    ensures Distinct(OfType(elements, ids, tag))
  {
    if ids != [] {
      var n := |ids| - 1;
      OfTypeDistinct(elements, ids[..n], tag);
      assert ids[n] !in ids[..n];
    }
  }
}

=== FILE: loader.dfy ===
/** What `storage.load` makes of a model file. The version gate runs first
    and rejects a file older than the minimum version. Pass one instantiates
    one element per record, with its recorded id and type and no attributes,
    and so builds the id table; a type the modeling language does not know,
    or an id used twice, is fatal. Pass two assigns the attributes and
    resolves every reference through the table, dropping the ones whose id
    is not in it. Pass three re-establishes the connection of every handle
    whose persisted connected item is in the table. */
module Loader {
  import opened Wrappers
  import opened Versions
  import opened Elements
  import opened Writer

  /** The oldest file version the loader accepts. */
  const MinimumVersion: Triple := Triple(0, 17, 0)

  /** The fatal load errors. */
  datatype LoadError =
    | VersionTooOld(version: string)
    | UnknownType(tag: TypeTag)
    | DuplicateId(id: Id)

  /** A successful load: the new factory content, and whether some reference
      was dropped because its id was not in the file. */
  datatype Loaded = Loaded(graph: Graph, unknownReference: bool)

  /** The ids of the records, in file order. */
  function Ids(records: seq<Record>): (r: seq<Id>)
    ensures |r| == |records|
    ensures forall i :: 0 <= i < |records| ==> r[i] == records[i].id
  {
    if records == [] then [] else Ids(records[..|records| - 1]) + [records[|records| - 1].id]
  }

  /** The ids of the records, as a set. */
  function IdSet(records: seq<Record>): set<Id> {
    set i | 0 <= i < |records| :: records[i].id
  }

  /** The element pass one creates for a record: recorded type, no attributes
      or references yet, and the recorded number of handles. */
  function Blank(r: Record): Element {
    Element(r.tag, map[], map[], |r.handles|)
  }

  /** Pass one: the id table, or the first fatal error in file order. */
  function Instantiate(records: seq<Record>, language: set<TypeTag>): Result<map<Id, Element>, LoadError> {
    if records == [] then Ok(map[])
    else
      match Instantiate(records[..|records| - 1], language)
      case Err(e) => Err(e)
      case Ok(table) =>
        var r := records[|records| - 1];
        if r.tag !in language then Err(UnknownType(r.tag))
        else if r.id in table then Err(DuplicateId(r.id))
        else Ok(table[r.id := Blank(r)])
  }

  /** The ids of a prefix of the file are a prefix of its ids. */
  lemma IdsOfPrefix(records: seq<Record>, n: nat)
    requires n <= |records|
    ensures Ids(records[..n]) == Ids(records)[..n]
  {
  }

  /** The id set of the file is that of all records but the last, plus the
      last record's id. */
  lemma IdSetSnoc(records: seq<Record>)
    requires records != []
    ensures IdSet(records) == IdSet(records[..|records| - 1]) + {records[|records| - 1].id}
  {
    var n := |records| - 1;
    var prefix := records[..n];
    forall x | x in IdSet(records) ensures x in IdSet(prefix) + {records[n].id} {
      var i :| 0 <= i < |records| && records[i].id == x;
      if i < n { assert prefix[i].id == x; }
    }
    forall x | x in IdSet(prefix) ensures x in IdSet(records) {
      var i :| 0 <= i < n && prefix[i].id == x;
      assert records[i].id == x;
    }
  }

  /** The ids of the file are distinct exactly when those of all records but
      the last are, and the last record's id is not among them. */
  lemma DistinctSnoc(records: seq<Record>)
    requires records != []
    ensures var n := |records| - 1;
      (Distinct(Ids(records)) <==> (Distinct(Ids(records[..n])) && records[n].id !in IdSet(records[..n])))
  {
    var n := |records| - 1;
    var prefix := records[..n];
    IdsOfPrefix(records, n);
    var ids := Ids(records);
    if Distinct(Ids(prefix)) && records[n].id !in IdSet(prefix) {
      forall i, j | 0 <= i < j < |records| ensures ids[i] != ids[j] {
        if j == n {
          assert prefix[i].id == records[i].id;
        } else {
          assert Ids(prefix)[i] != Ids(prefix)[j];
        }
      }
    }
    if records[n].id in IdSet(prefix) {
      var i :| 0 <= i < n && prefix[i].id == records[n].id;
      assert ids[i] == ids[n];
    }
  }

  /** When pass one succeeds, the table holds one blank element per record
      and nothing else. */
  lemma {:induction false} InstantiateTable(records: seq<Record>, language: set<TypeTag>)
    requires Instantiate(records, language).Ok?
    ensures Instantiate(records, language).value.Keys == IdSet(records)
    ensures forall i :: 0 <= i < |records| ==>
              Instantiate(records, language).value[records[i].id] == Blank(records[i])
  {
    if records != [] {
      var n := |records| - 1;
      var prefix := records[..n];
      InstantiateTable(prefix, language);
      IdSetSnoc(records);
      var table := Instantiate(prefix, language).value;
      var t := Instantiate(records, language).value;
      assert t == table[records[n].id := Blank(records[n])];
      forall i | 0 <= i < |records| ensures t[records[i].id] == Blank(records[i]) {
        if i < n {
          assert prefix[i] == records[i];
          assert records[i].id in IdSet(prefix);
        }
      }
    }
  }

  /** Pass one succeeds exactly when every type is known and no id repeats. */
  lemma {:induction false} InstantiateOk(records: seq<Record>, language: set<TypeTag>)
    ensures Instantiate(records, language).Ok?
        <==> (forall i :: 0 <= i < |records| ==> records[i].tag in language) && Distinct(Ids(records))
  {
    if records != [] {
      var n := |records| - 1;
      var prefix := records[..n];
      InstantiateOk(prefix, language);
      DistinctSnoc(records);
      IdsOfPrefix(records, n);
      assert forall i :: 0 <= i < n ==> prefix[i] == records[i];
      if Instantiate(prefix, language).Ok? {
        InstantiateTable(prefix, language);
      }
    }
  }

  /** Once a prefix of the file has a fatal error, the whole file has that
      error: pass one stops at the first one. */
  lemma {:induction false} InstantiateStopsAtFirstError(records: seq<Record>, k: nat, language: set<TypeTag>)
    requires k <= |records|
    requires Instantiate(records[..k], language).Err?
    ensures Instantiate(records, language) == Instantiate(records[..k], language)
  {
    if k < |records| {
      var n := |records| - 1;
      assert records[..n][..k] == records[..k];
      InstantiateStopsAtFirstError(records[..n], k, language);
    } else {
      assert records[..k] == records;
    }
  }

  /** The element a record stands for once its references are resolved
      against the ids `known` of the file. */
  function ElementOf(r: Record, known: set<Id>): Element {
    Blank(r).(attributes := r.attributes, refs := ResolveRefs(r.refs, known))
  }

  /** Pass two: every record's element with attributes set and references
      resolved, by id. */
  function Populate(records: seq<Record>, known: set<Id>): map<Id, Element> {
    if records == [] then map[]
    else
      var r := records[|records| - 1];
      Populate(records[..|records| - 1], known)[r.id := ElementOf(r, known)]
  }

  /** With distinct ids, pass two gives each record's own element. */
  lemma {:induction false} PopulateAt(records: seq<Record>, known: set<Id>)
    requires Distinct(Ids(records))
    ensures Populate(records, known).Keys == IdSet(records)
    ensures forall i :: 0 <= i < |records| ==>
              Populate(records, known)[records[i].id] == ElementOf(records[i], known)
  {
    if records != [] {
      var n := |records| - 1;
      var prefix := records[..n];
      assert forall i :: 0 <= i < n ==> prefix[i] == records[i];
      assert Ids(prefix) == Ids(records)[..n];
      PopulateAt(prefix, known);
      assert IdSet(records) == IdSet(prefix) + {records[n].id};
    }
  }

  /** The connections pass three makes for one item record: each handle whose
      persisted connected item is in the file. */
  function HandleConnections(r: Record, known: set<Id>): map<Handle, Id> {
    map i | 0 <= i < |r.handles| && r.handles[i].Some? && r.handles[i].value in known
      :: Handle(r.id, i) := r.handles[i].value
  }

  /** Pass three: the connections of all records. */
  function Reconnect(records: seq<Record>, known: set<Id>): map<Handle, Id> {
    if records == [] then map[]
    else
      Reconnect(records[..|records| - 1], known) + HandleConnections(records[|records| - 1], known)
  }

  /** With distinct ids, a handle is connected after pass three exactly when
      its record persisted a connection to an id in the file, and to that id. */
  lemma {:induction false} ReconnectAt(records: seq<Record>, known: set<Id>, h: Handle)
    requires Distinct(Ids(records))
    ensures h in Reconnect(records, known) <==>
              exists i :: 0 <= i < |records| && records[i].id == h.item
                          && h.index < |records[i].handles| && records[i].handles[h.index].Some?
                          && records[i].handles[h.index].value in known
    ensures forall i :: 0 <= i < |records| && records[i].id == h.item && h in Reconnect(records, known)
              ==> Some(Reconnect(records, known)[h]) == records[i].handles[h.index]
  {
    if records != [] {
      var n := |records| - 1;
      var prefix := records[..n];
      assert forall i :: 0 <= i < n ==> prefix[i] == records[i];
      assert Ids(prefix) == Ids(records)[..n];
      ReconnectAt(prefix, known, h);
      var last := records[n];
      if h.item == last.id && h.index < |last.handles| && last.handles[h.index].Some?
         && last.handles[h.index].value in known {
        assert h == Handle(last.id, h.index);
        assert h in HandleConnections(last, known);
      }
    }
  }

  /** Does a record hold a reference or handle connection to an id that is
      not in the file? Loading then logs "Model has unknown reference". */
  predicate RecordDangles(r: Record, known: set<Id>) {
    || !RefsKnown(r.refs, known)
    || exists i :: 0 <= i < |r.handles| && r.handles[i].Some? && r.handles[i].value !in known
  }

  /** `storage.load` on a parsed model file, for a modeling language that
      knows the types `language`. */
  function LoadDocument(doc: Document, language: set<TypeTag>): Result<Loaded, LoadError> {
    if VersionLowerThan(doc.version, MinimumVersion) then Err(VersionTooOld(doc.version))
    else
      match Instantiate(doc.records, language)
      case Err(e) => Err(e)
      case Ok(table) =>
        var known := table.Keys;
        Ok(Loaded(
          Graph(Populate(doc.records, known), Ids(doc.records), Reconnect(doc.records, known)),
          exists i :: 0 <= i < |doc.records| && RecordDangles(doc.records[i], known)))
  }

  /** A file older than the minimum version is rejected before anything is
      instantiated. */
  lemma LoadRejectsOldVersion(doc: Document, language: set<TypeTag>)
    requires VersionLowerThan(doc.version, MinimumVersion)
    ensures LoadDocument(doc, language) == Err(VersionTooOld(doc.version))
  {
  }

  /** A successful load: pass one found distinct ids and known types, and
      the references were resolved against exactly the ids of the file. */
  lemma LoadedShape(doc: Document, language: set<TypeTag>)
    requires LoadDocument(doc, language).Ok?
    ensures !VersionLowerThan(doc.version, MinimumVersion)
    ensures Distinct(Ids(doc.records))
    ensures forall i :: 0 <= i < |doc.records| ==> doc.records[i].tag in language
    ensures var known := IdSet(doc.records);
      LoadDocument(doc, language).value == Loaded(
        Graph(Populate(doc.records, known), Ids(doc.records), Reconnect(doc.records, known)),
        exists i :: 0 <= i < |doc.records| && RecordDangles(doc.records[i], known))
  {
    InstantiateOk(doc.records, language);
    InstantiateTable(doc.records, language);
  }

  /** After a successful load each record gave exactly one element, in file
      order, with its type, attributes and handles. */
  lemma LoadedGraphKeepsRecords(doc: Document, language: set<TypeTag>)
    requires LoadDocument(doc, language).Ok?
    ensures var g := LoadDocument(doc, language).value.graph;
      && g.order == Ids(doc.records)
      && g.elements.Keys == IdSet(doc.records)
      && forall i :: 0 <= i < |doc.records| ==>
           && g.elements[doc.records[i].id].tag == doc.records[i].tag
           && g.elements[doc.records[i].id].attributes == doc.records[i].attributes
           && g.elements[doc.records[i].id].handleCount == |doc.records[i].handles|
  {
    LoadedShape(doc, language);
    PopulateAt(doc.records, IdSet(doc.records));
  }

  /** After a successful load the factory invariant holds. */
  lemma LoadedGraphIsValid(doc: Document, language: set<TypeTag>)
    requires LoadDocument(doc, language).Ok?
    ensures Valid(LoadDocument(doc, language).value.graph)
  {
    var records := doc.records;
    LoadedShape(doc, language);
    LoadedGraphKeepsRecords(doc, language);
    var known := IdSet(records);
    var g := LoadDocument(doc, language).value.graph;
    forall x ensures x in g.elements <==> x in g.order {
      if x in g.elements {
        var i :| 0 <= i < |records| && records[i].id == x;
        assert g.order[i] == x;
      }
    }
    forall h | h in g.connections
      ensures h.item in g.elements && h.index < g.elements[h.item].handleCount
    {
      ReconnectAt(records, known, h);
    }
  }

  /** After a successful load every reference and every handle connection
      resolves to an element of the file. */
  lemma LoadedGraphIsClosed(doc: Document, language: set<TypeTag>)
    requires LoadDocument(doc, language).Ok?
    ensures Closed(LoadDocument(doc, language).value.graph)
  {
    var records := doc.records;
    LoadedShape(doc, language);
    var known := IdSet(records);
    PopulateAt(records, known);
    var g := LoadDocument(doc, language).value.graph;
    assert g.elements.Keys == known;
    forall x | x in g.elements ensures RefsKnown(g.elements[x].refs, known) {
      var i :| 0 <= i < |records| && records[i].id == x;
      assert g.elements[x] == ElementOf(records[i], known);
    }
    forall h | h in g.connections ensures g.connections[h] in known {
      ReconnectAt(records, known, h);
      var i :| 0 <= i < |records| && records[i].id == h.item
               && h.index < |records[i].handles| && records[i].handles[h.index].Some?
               && records[i].handles[h.index].value in known;
    }
  }
}

=== FILE: round_trip.dfy ===
/** Saving a factory's content and loading the file back gives the same
    content, except for references that pointed outside the factory, which
    the writer already left out. */
module RoundTrip {
  import opened Wrappers
  import opened Versions
  import opened Elements
  import opened Writer
  import opened Loader

  /** The records `save` writes, read back as ids, are the creation order. */
  lemma SavedIds(g: Graph, version: string)
    requires Valid(g)
    ensures Ids(SaveDocument(g, version).records) == g.order
    ensures IdSet(SaveDocument(g, version).records) == g.elements.Keys
    ensures Distinct(Ids(SaveDocument(g, version).records))
  {
    var records := Records(g, g.order);
    SavedIdOrder(g, records);
    IdSetOfIds(records, g.order, g.elements.Keys);
  }

  /** The id set of records whose ids are `ids` is the set of `ids`. */
  lemma IdSetOfIds(records: seq<Record>, ids: seq<Id>, keys: set<Id>)
    requires Ids(records) == ids
    requires forall x :: x in keys <==> x in ids
    ensures IdSet(records) == keys
  {
    forall x | x in keys ensures x in IdSet(records) {
      var i :| 0 <= i < |ids| && ids[i] == x;
      assert records[i].id == x;
    }
  }

  lemma SavedIdOrder(g: Graph, records: seq<Record>)
    requires Valid(g)
    requires records == Records(g, g.order)
    ensures Ids(records) == g.order
  {
    forall i | 0 <= i < |records| ensures Ids(records)[i] == g.order[i] {
      assert records[i] == RecordOf(g, g.order[i]);
    }
  }

  /** Pass two on a saved file gives back every element with its dangling
      references dropped. */
  lemma SavedElements(g: Graph, version: string)
    requires Valid(g)
    ensures Populate(SaveDocument(g, version).records, g.elements.Keys) == Clean(g).elements
  {
    var records := SaveDocument(g, version).records;
    SavedIds(g, version);
    SavedElementsPointwise(g, records);
    SavedElementKeys(g, records);
    SameElements(Populate(records, g.elements.Keys), CleanElements(g));
  }

  /** Pass two on the records saved for `g` gives one element per element of
      `g`, and no other. */
  lemma SavedElementKeys(g: Graph, records: seq<Record>)
    requires Ids(records) == g.order && Distinct(g.order)
    requires IdSet(records) == g.elements.Keys
    ensures Populate(records, g.elements.Keys).Keys == CleanElements(g).Keys
  {
    PopulateAt(records, g.elements.Keys);
  }

  /** Pass two on the records saved for `g` gives, under every id, that
      element with its dangling references dropped. */
  lemma SavedElementsPointwise(g: Graph, records: seq<Record>)
    requires Valid(g)
    requires records == Records(g, g.order)
    requires Ids(records) == g.order
    ensures forall x :: x in g.elements ==>
              x in Populate(records, g.elements.Keys)
              && Populate(records, g.elements.Keys)[x] == CleanElements(g)[x]
  {
    forall x | x in g.elements
      ensures x in Populate(records, g.elements.Keys)
              && Populate(records, g.elements.Keys)[x] == CleanElements(g)[x]
    {
      SavedElementOfId(g, records, x);
    }
  }

  /** Pass two on the records saved for `g` gives, under id `x`, that
      element with its dangling references dropped. */
  lemma SavedElementOfId(g: Graph, records: seq<Record>, x: Id)
    requires Valid(g)
    requires records == Records(g, g.order)
    requires Ids(records) == g.order
    requires x in g.elements
    ensures x in Populate(records, g.elements.Keys)
    ensures Populate(records, g.elements.Keys)[x] == CleanElements(g)[x]
  {
    var known := g.elements.Keys;
    PopulateAt(records, known);
    var i :| 0 <= i < |g.order| && g.order[i] == x;
    assert Ids(records)[i] == records[i].id == x;
    SavedElementAt(g, records, i);
  }

  /** The element pass two makes of the record saved for `g.order[i]` is that
      element with its dangling references dropped. */
  lemma SavedElementAt(g: Graph, records: seq<Record>, i: nat)
    requires Valid(g)
    requires records == Records(g, g.order)
    requires i < |g.order|
    ensures ElementOf(records[i], g.elements.Keys)
            == CleanElement(g.elements[g.order[i]], g.elements.Keys)
  {
    var x := g.order[i];
    assert records[i] == RecordOf(g, x);
    ResolveRefsIdempotent(g.elements[x].refs, g.elements.Keys);
  }

  /** Two element tables with the same ids and elements are equal. */
  lemma SameElements(a: map<Id, Element>, b: map<Id, Element>)
    requires a.Keys == b.Keys
    requires forall x :: x in a ==> a[x] == b[x]
    ensures a == b
  {
  }

  /** What pass three on a saved file makes of one handle. */
  lemma SavedConnectionAt(g: Graph, version: string, h: Handle)
    requires Valid(g)
    ensures var loaded := Reconnect(SaveDocument(g, version).records, g.elements.Keys);
      && (h in loaded <==> h in g.connections && g.connections[h] in g.elements)
      && (h in loaded ==> loaded[h] == g.connections[h])
  {
    var records := SaveDocument(g, version).records;
    var known := g.elements.Keys;
    SavedIds(g, version);
    ReconnectAt(records, known, h);
    if h.item in g.elements {
      var i :| 0 <= i < |g.order| && g.order[i] == h.item;
      assert records[i] == RecordOf(g, h.item);
      if h.index < g.elements[h.item].handleCount {
        assert records[i].handles[h.index] == HandleTarget(g, Handle(h.item, h.index));
      }
    }
  }

  /** Pass three on a saved file gives back every connection to an element
      of the factory. */
  lemma SavedConnections(g: Graph, version: string)
    requires Valid(g)
    ensures Reconnect(SaveDocument(g, version).records, g.elements.Keys) == Clean(g).connections
  {
    var loaded := Reconnect(SaveDocument(g, version).records, g.elements.Keys);
    var expected := CleanConnections(g);
    forall h ensures (h in loaded <==> h in expected) && (h in loaded ==> loaded[h] == expected[h]) {
      SavedConnectionAt(g, version, h);
    }
    SameConnections(loaded, expected);
  }

  /** Two connection tables with the same handles and targets are equal. */
  lemma SameConnections(a: map<Handle, Id>, b: map<Handle, Id>)
    requires forall h :: (h in a <==> h in b) && (h in a ==> a[h] == b[h])
    ensures a == b
  {
  }

  /** Loading a file the writer produced never reports an unknown reference. */
  lemma SavedFileHasNoUnknownReference(g: Graph, version: string)
    requires Valid(g)
    ensures forall i :: 0 <= i < |SaveDocument(g, version).records| ==>
              !RecordDangles(SaveDocument(g, version).records[i], g.elements.Keys)
  {
    var records := SaveDocument(g, version).records;
    forall i | 0 <= i < |records| ensures !RecordDangles(records[i], g.elements.Keys) {
      assert records[i] == RecordOf(g, g.order[i]);
    }
  }

  /** Save followed by load into a factory for the same modeling language
      gives the saved content back, minus the references that pointed
      outside it, and reports no unknown reference. */
  lemma SaveLoadRoundTrip(g: Graph, version: string, language: set<TypeTag>)
    requires Valid(g)
    requires forall x :: x in g.elements ==> g.elements[x].tag in language
    requires !VersionLowerThan(version, MinimumVersion)
    ensures LoadDocument(SaveDocument(g, version), language) == Ok(Loaded(Clean(g), false))
  {
    var doc := SaveDocument(g, version);
    SavedIds(g, version);
    forall i | 0 <= i < |doc.records| ensures doc.records[i].tag in language {
      assert doc.records[i] == RecordOf(g, g.order[i]);
    }
    InstantiateOk(doc.records, language);
    InstantiateTable(doc.records, language);
    SavedElements(g, version);
    SavedConnections(g, version);
    SavedFileHasNoUnknownReference(g, version);
  }

  /** A closed graph comes back exactly, ids included. */
  lemma SaveLoadRoundTripExact(g: Graph, version: string, language: set<TypeTag>)
    requires Valid(g) && Closed(g)
    requires forall x :: x in g.elements ==> g.elements[x].tag in language
    requires !VersionLowerThan(version, MinimumVersion)
    ensures LoadDocument(SaveDocument(g, version), language) == Ok(Loaded(g, false))
  {
    SaveLoadRoundTrip(g, version, language);
    CleanIsClosed(g);
  }

  // ---------------------------------------------------------------------------
  // What the load tests check after save and reload

  /** The same number of elements, and of elements of every type, and every
      element keeps its type and attributes (a whitespace-padded name
      included) under its own id. */
  lemma RoundTripKeepsElements(g: Graph, version: string, language: set<TypeTag>, tag: TypeTag)
    requires Valid(g)
    requires forall x :: x in g.elements ==> g.elements[x].tag in language
    requires !VersionLowerThan(version, MinimumVersion)
    ensures LoadDocument(SaveDocument(g, version), language).Ok?
    ensures var h := LoadDocument(SaveDocument(g, version), language).value.graph;
      && h.order == g.order
      && |h.order| == |g.order|
      && Count(h, tag) == Count(g, tag)
      && h.elements.Keys == g.elements.Keys
      && (forall x :: x in g.elements ==>
            h.elements[x].tag == g.elements[x].tag && h.elements[x].attributes == g.elements[x].attributes)
      && (forall x :: x in g.elements && NameAttr in g.elements[x].attributes ==>
            NameAttr in h.elements[x].attributes
            && h.elements[x].attributes[NameAttr] == g.elements[x].attributes[NameAttr])
  {
    SaveLoadRoundTrip(g, version, language);
    var h := Clean(g);
    assert OfType(h.elements, h.order, tag) == OfType(g.elements, g.order, tag) by {
      OfTypeSameTags(g.elements, h.elements, g.order, tag);
    }
  }

  /** Two element maps that agree on the types of `ids` select the same ids. */
  lemma {:induction false} OfTypeSameTags(a: map<Id, Element>, b: map<Id, Element>, ids: seq<Id>, tag: TypeTag)
    requires a.Keys == b.Keys
    requires forall x :: x in a ==> a[x].tag == b[x].tag
    ensures OfType(a, ids, tag) == OfType(b, ids, tag)
  {
    if ids != [] {
      OfTypeSameTags(a, b, ids[..|ids| - 1], tag);
    }
  }

  /** A single reference survives cleaning exactly when its target is in
      the graph. */
  lemma CleanKeepsSingleRef(g: Graph, x: Id, a: string, t: Id)
    requires x in g.elements
    ensures var refs := Clean(g).elements[x].refs;
      (a in refs && refs[a] == Single(t))
        <==> (a in g.elements[x].refs && g.elements[x].refs[a] == Single(t) && t in g.elements)
  {
  }

  /** Every diagram keeps its items across save and reload. */
  lemma RoundTripKeepsDiagramItems(g: Graph, version: string, language: set<TypeTag>, d: Id)
    requires Valid(g)
    requires forall x :: x in g.elements ==> g.elements[x].tag in language
    requires !VersionLowerThan(version, MinimumVersion)
    requires d in g.elements
    ensures LoadDocument(SaveDocument(g, version), language).Ok?
    ensures ItemsOf(LoadDocument(SaveDocument(g, version), language).value.graph, d) == ItemsOf(g, d)
  {
    SaveLoadRoundTrip(g, version, language);
    forall x | x in g.elements {
      CleanKeepsSingleRef(g, x, DiagramRef, d);
    }
  }

  /** Every element keeps the presentation items that show it, and each of
      them keeps it as its subject, across save and reload. */
  lemma RoundTripKeepsSubjects(g: Graph, version: string, language: set<TypeTag>, s: Id)
    requires Valid(g)
    requires forall x :: x in g.elements ==> g.elements[x].tag in language
    requires !VersionLowerThan(version, MinimumVersion)
    requires s in g.elements
    ensures LoadDocument(SaveDocument(g, version), language).Ok?
    ensures PresentationOf(LoadDocument(SaveDocument(g, version), language).value.graph, s)
         == PresentationOf(g, s)
  {
    SaveLoadRoundTrip(g, version, language);
    forall x | x in g.elements {
      CleanKeepsSingleRef(g, x, SubjectRef, s);
    }
  }

  /** Every handle connected to an element of the factory is connected to the
      same element after reload, and no other handle is connected. */
  lemma RoundTripKeepsConnections(g: Graph, version: string, language: set<TypeTag>)
    requires Valid(g)
    requires forall x :: x in g.elements ==> g.elements[x].tag in language
    requires !VersionLowerThan(version, MinimumVersion)
    ensures LoadDocument(SaveDocument(g, version), language).Ok?
    ensures var h := LoadDocument(SaveDocument(g, version), language).value.graph;
      forall hd :: hd in h.connections <==> hd in g.connections && g.connections[hd] in g.elements
    ensures var h := LoadDocument(SaveDocument(g, version), language).value.graph;
      forall hd :: hd in h.connections ==> h.connections[hd] == g.connections[hd]
  {
    SaveLoadRoundTrip(g, version, language);
  }

  /** The association test: an association item whose head and tail are
      connected to two different class items comes back with both ends
      connected, to those two items, which are still different. */
  lemma RoundTripAssociationEnds(g: Graph, version: string, language: set<TypeTag>,
                                 a: Id, c1: Id, c2: Id)
    requires Valid(g)
    requires forall x :: x in g.elements ==> g.elements[x].tag in language
    requires !VersionLowerThan(version, MinimumVersion)
    requires c1 in g.elements && c2 in g.elements && c1 != c2
    requires Handle(a, 0) in g.connections && g.connections[Handle(a, 0)] == c1
    requires Handle(a, 1) in g.connections && g.connections[Handle(a, 1)] == c2
    ensures LoadDocument(SaveDocument(g, version), language).Ok?
    ensures var h := LoadDocument(SaveDocument(g, version), language).value.graph;
      && Handle(a, 0) in h.connections && Handle(a, 1) in h.connections
      && h.connections[Handle(a, 0)] == c1 && h.connections[Handle(a, 1)] == c2
      && h.connections[Handle(a, 0)] != h.connections[Handle(a, 1)]
  {
    RoundTripKeepsConnections(g, version, language);
  }
}

=== FILE: storage.dfy ===
/** `storage.save` and `storage.load` as the step-by-step procedures they
    are: save walks the factory and writes one record per element into an
    output sink; load runs the version gate and the three passes over the
    records of a file, then replaces the factory's content. Each procedure
    is proved against the value-level definition of what it computes
    (`SaveDocument`, `Instantiate`, `Populate`, `Reconnect`, `LoadDocument`). */
module Storage {
  import opened Wrappers
  import opened Versions
  import opened Elements
  import opened Writer
  import opened Loader
  import opened Factory
  import opened RoundTrip

  /** The output a writer appends to, like the test's `PseudoFile`, whose
      `write` appends to what it already holds. */
  class Sink {
    var version: string
    var records: seq<Record>

    constructor ()
      ensures version == "" && records == []
    {
      version, records := "", [];
    }

    /** The file header, carrying the version of the saving program. */
    method WriteHeader(v: string)
      modifies this
      ensures version == v && records == old(records)
    {
      version := v;
    }

    /** Appends one record. */
    method Write(r: Record)
      modifies this
      ensures records == old(records) + [r] && version == old(version)
    {
      records := records + [r];
    }
  }

  /** Writes the records of the elements `ids` of `g`, in that order, and
      tells whether one of them references something outside `g`. */
  method WriteElements(g: Graph, ids: seq<Id>, sink: Sink) returns (unknownReference: bool)
    requires forall i :: 0 <= i < |ids| ==> ids[i] in g.elements
    modifies sink
    ensures sink.version == old(sink.version)
    ensures sink.records == old(sink.records) + Records(g, ids)
    ensures unknownReference <==> exists j :: 0 <= j < |ids| && Dangles(g, ids[j])
  {
    unknownReference := false;
    var i := 0;
    while i < |ids|
      invariant 0 <= i <= |ids|
      invariant sink.version == old(sink.version)
      invariant sink.records == old(sink.records) + Records(g, ids[..i])
      invariant unknownReference <==> exists j :: 0 <= j < i && Dangles(g, ids[j])
    {
      var x := ids[i];
      assert ids[..i + 1][..i] == ids[..i];
      sink.Write(RecordOf(g, x));
      unknownReference := unknownReference || Dangles(g, x);
      i := i + 1;
    }
    assert ids[..|ids|] == ids;
  }

  /** `storage.save`: writes the header and then every element of the factory,
      in creation order, into `sink`. The result tells whether an element
      referenced something outside the factory, the case in which save logs
      "Model has unknown reference" (such a reference is not written). */
  method Save(factory: ElementFactory, sink: Sink, version: string) returns (unknownReference: bool)
    requires factory.Valid()
    modifies sink
    ensures sink.version == version
    ensures sink.records == old(sink.records) + SaveDocument(factory.Content(), version).records
    ensures unknownReference <==> !Closed(factory.Content())
  {
    var g := factory.Content();
    sink.WriteHeader(version);
    unknownReference := WriteElements(g, g.order, sink);
    DanglesIffNotClosed(g);
  }

  /** Load pass one: instantiates one element per record and so builds the id
      table; stops at the first record of an unknown type or a repeated id.
      It also collects the ids in file order, the new creation order. */
  method InstantiatePass(records: seq<Record>, language: set<TypeTag>)
    returns (result: Result<map<Id, Element>, LoadError>, order: seq<Id>)
    ensures result == Instantiate(records, language)
    ensures result.Ok? ==> order == Ids(records)
  {
    var table: map<Id, Element> := map[];
    order := [];
    var i := 0;
    while i < |records|
      invariant 0 <= i <= |records|
      invariant Instantiate(records[..i], language) == Ok(table)
      invariant order == Ids(records[..i])
    {
      var r := records[i];
      assert records[..i + 1][..i] == records[..i];
      if r.tag !in language {
        InstantiateStopsAtFirstError(records, i + 1, language);
        result := Err(UnknownType(r.tag));
        return;
      }
      if r.id in table {
        InstantiateStopsAtFirstError(records, i + 1, language);
        result := Err(DuplicateId(r.id));
        return;
      }
      table := table[r.id := Blank(r)];
      order := order + [r.id];
      i := i + 1;
    }
    assert records[..|records|] == records;
    result := Ok(table);
  }

  /** Load pass two: sets the attributes of every element and resolves its
      references against the ids `known` of the file, dropping the unknown
      ones; it notes whether any record mentioned an unknown id. */
  method PopulatePass(records: seq<Record>, table: map<Id, Element>, known: set<Id>)
    returns (elements: map<Id, Element>, unknownReference: bool)
    requires forall i :: 0 <= i < |records| ==> records[i].id in table && table[records[i].id] == Blank(records[i])
    ensures elements == table + Populate(records, known)
    ensures unknownReference <==> exists i :: 0 <= i < |records| && RecordDangles(records[i], known)
  {
    elements := table;
    unknownReference := false;
    var i := 0;
    while i < |records|
      invariant 0 <= i <= |records|
      invariant elements == table + Populate(records[..i], known)
      invariant unknownReference <==> exists j :: 0 <= j < i && RecordDangles(records[j], known)
    {
      var r := records[i];
      assert records[..i + 1][..i] == records[..i];
      var e := table[r.id];
      elements := elements[r.id := e.(attributes := r.attributes, refs := ResolveRefs(r.refs, known))];
      unknownReference := unknownReference || RecordDangles(r, known);
      i := i + 1;
    }
    assert records[..|records|] == records;
  }

  /** The connections pass three makes for the first `j` handles of `r`, one
      handle at a time. */
  function FirstConnections(r: Record, j: nat, known: set<Id>): map<Handle, Id>
    requires j <= |r.handles|
  {
    if j == 0 then map[]
    else
      var before := FirstConnections(r, j - 1, known);
      var target := r.handles[j - 1];
      if target.Some? && target.value in known then before[Handle(r.id, j - 1) := target.value]
      else before
  }

  /** Handle by handle, pass three connects exactly the handles among the
      first `j` whose persisted connected item is in `known`. */
  lemma {:induction false} FirstConnectionsAt(r: Record, j: nat, known: set<Id>)
    requires j <= |r.handles|
    ensures forall h :: h in FirstConnections(r, j, known) <==>
              h.item == r.id && h.index < j && r.handles[h.index].Some? && r.handles[h.index].value in known
    ensures forall h :: h in FirstConnections(r, j, known) ==>
              Some(FirstConnections(r, j, known)[h]) == r.handles[h.index]
  {
    if j > 0 {
      FirstConnectionsAt(r, j - 1, known);
    }
  }

  /** After all its handles, pass three has made a record's connections. */
  lemma FirstConnectionsAll(r: Record, known: set<Id>)
    ensures FirstConnections(r, |r.handles|, known) == HandleConnections(r, known)
  {
    var first := FirstConnections(r, |r.handles|, known);
    var all := HandleConnections(r, known);
    FirstConnectionsAt(r, |r.handles|, known);
    forall h | h in all ensures h in first && first[h] == all[h] {
      var i :| 0 <= i < |r.handles| && r.handles[i].Some? && r.handles[i].value in known
               && h == Handle(r.id, i);
    }
    forall h | h in first ensures h in all {
      assert h == Handle(r.id, h.index);
    }
  }

  /** Load pass three for one record: adds to `connections` the connection of
      every handle of `r` whose persisted connected item is in `known`. */
  method ReconnectRecord(r: Record, known: set<Id>, connections: map<Handle, Id>)
    returns (result: map<Handle, Id>)
    ensures result == connections + HandleConnections(r, known)
  {
    result := connections;
    var j := 0;
    while j < |r.handles|
      invariant 0 <= j <= |r.handles|
      invariant result == connections + FirstConnections(r, j, known)
    {
      if r.handles[j].Some? && r.handles[j].value in known {
        OverrideUpdate(connections, FirstConnections(r, j, known), Handle(r.id, j), r.handles[j].value);
        result := result[Handle(r.id, j) := r.handles[j].value];
      }
      j := j + 1;
    }
    FirstConnectionsAll(r, known);
  }

  /** Updating a map union at one key updates its right operand. */
  lemma OverrideUpdate(a: map<Handle, Id>, b: map<Handle, Id>, h: Handle, v: Id)
    ensures (a + b)[h := v] == a + b[h := v]
  {
  }

  /** Load pass three: reconnects every handle whose persisted connected item
      is one of the ids `known` of the file. */
  method ReconnectPass(records: seq<Record>, known: set<Id>) returns (connections: map<Handle, Id>)
    ensures connections == Reconnect(records, known)
  {
    connections := map[];
    var i := 0;
    while i < |records|
      invariant 0 <= i <= |records|
      invariant connections == Reconnect(records[..i], known)
    {
      assert records[..i + 1][..i] == records[..i];
      connections := ReconnectRecord(records[i], known, connections);
      i := i + 1;
    }
    assert records[..|records|] == records;
  }

  /** What load yields once the gate and pass one have succeeded. */
  lemma LoadDocumentOk(doc: Document, language: set<TypeTag>, table: map<Id, Element>)
    requires !VersionLowerThan(doc.version, MinimumVersion)
    requires Instantiate(doc.records, language) == Ok(table)
    ensures LoadDocument(doc, language)
            == Ok(Loaded(Graph(Populate(doc.records, table.Keys), Ids(doc.records), Reconnect(doc.records, table.Keys)),
                         exists i :: 0 <= i < |doc.records| && RecordDangles(doc.records[i], table.Keys)))
  {
  }

  /** Passes two and three, after pass one built the id table `table` from
      `records`: the elements and the connections of the loaded model. */
  method PopulateAndReconnect(records: seq<Record>, language: set<TypeTag>, table: map<Id, Element>)
    returns (elements: map<Id, Element>, connections: map<Handle, Id>, unknownReference: bool)
    requires Instantiate(records, language) == Ok(table)
    ensures elements == Populate(records, table.Keys)
    ensures connections == Reconnect(records, table.Keys)
    ensures unknownReference <==> exists i :: 0 <= i < |records| && RecordDangles(records[i], table.Keys)
  {
    var known := table.Keys;
    InstantiateTable(records, language);
    InstantiateOk(records, language);
    elements, unknownReference := PopulatePass(records, table, known);
    PopulateAt(records, known);
    connections := ReconnectPass(records, known);
  }

  /** `storage.load`: reads a model file into the factory. On success the
      factory holds exactly the file's elements and connections, replacing
      what it held, and the result tells whether a reference to an id not in
      the file was dropped. On a fatal error (a file older than the minimum
      version, an unknown type, a repeated id) the result is that error and
      the factory is left as it was. */
  method Load(factory: ElementFactory, doc: Document, language: set<TypeTag>)
    returns (result: Result<bool, LoadError>)
    requires factory.Valid()
    modifies factory
    ensures factory.Valid()
    ensures LoadDocument(doc, language).Ok? ==>
              && result == Ok(LoadDocument(doc, language).value.unknownReference)
              && factory.Content() == LoadDocument(doc, language).value.graph
    ensures LoadDocument(doc, language).Err? ==>
              && result == Err(LoadDocument(doc, language).error)
              && factory.Content() == old(factory.Content())
  {
    if VersionLowerThan(doc.version, MinimumVersion) {
      return Err(VersionTooOld(doc.version));
    }
    var instantiated, order := InstantiatePass(doc.records, language);
    if instantiated.Err? {
      return Err(instantiated.error);
    }
    var table := instantiated.value;
    LoadDocumentOk(doc, language, table);
    var elements, connections, unknownReference := PopulateAndReconnect(doc.records, language, table);
    LoadedGraphIsValid(doc, language);
    factory.elements, factory.order, factory.connections := elements, order, connections;
    result := Ok(unknownReference);
  }

  /** The tests' save, flush and load cycle on one factory: the factory's
      content is saved into a fresh sink, the factory is flushed and the
      written file is loaded back into it. Afterwards the factory holds the
      content it had, minus only the references that pointed outside it, and
      the load succeeds without reporting an unknown reference. */
  method SaveFlushLoad(factory: ElementFactory, version: string, language: set<TypeTag>)
    returns (result: Result<bool, LoadError>)
    requires factory.Valid()
    requires forall x :: x in factory.elements ==> factory.elements[x].tag in language
    requires !VersionLowerThan(version, MinimumVersion)
    modifies factory
    ensures factory.Valid()
    ensures result == Ok(false)
    ensures factory.Content() == Clean(old(factory.Content()))
  {
    ghost var g := factory.Content();
    var sink := new Sink();
    var _ := Save(factory, sink, version);
    factory.Flush();
    var doc := Document(sink.version, sink.records);
    assert doc == SaveDocument(g, version);
    SaveLoadRoundTrip(g, version, language);
    result := Load(factory, doc, language);
  }
}

=== FILE: versions.dfy ===
/** The version gate of the storage module: the `gaphor-version` header of a
    model file is parsed into a (major, minor, patch) triple and compared with
    the oldest version the loader still accepts. */
module Versions {

  /** A version number (major, minor, patch). */
  datatype Triple = Triple(major: nat, minor: nat, patch: nat)

  predicate IsDigit(c: char) {
    '0' <= c <= '9'
  }

  predicate AllDigits(s: string) {
    forall i :: 0 <= i < |s| ==> IsDigit(s[i])
  }

  // ---------------------------------------------------------------------------
  // Splitting on '.'

  /** The pieces of `s` between dots, as Python's `s.split(".")` gives them:
      there is always at least one piece, and no piece holds a dot. */
  function Split(s: string): (r: seq<string>)
    ensures |r| >= 1
    ensures forall i :: 0 <= i < |r| ==> '.' !in r[i]
  {
    if s == [] then [""]
    else if s[0] == '.' then [""] + Split(s[1..])
    else
      var rest := Split(s[1..]);
      [[s[0]] + rest[0]] + rest[1..]
  }

  /** The inverse of Split: the pieces glued back together with dots. */
  function Join(pieces: seq<string>): string
    requires |pieces| >= 1
  {
    if |pieces| == 1 then pieces[0] else pieces[0] + "." + Join(pieces[1..])
  }

  /** Splitting loses nothing: the pieces put back together give the string. */
  lemma {:induction false} JoinSplit(s: string)
    ensures Join(Split(s)) == s
  {
    if s == [] {
    } else if s[0] == '.' {
      JoinSplit(s[1..]);
      assert Split(s)[1..] == Split(s[1..]);
    } else {
      JoinSplit(s[1..]);
      var rest := Split(s[1..]);
      if |rest| == 1 {
        assert Join(Split(s)) == [s[0]] + rest[0];
      } else {
        assert Split(s)[1..] == rest[1..];
        assert Join(rest) == rest[0] + "." + Join(rest[1..]);
        assert Join(Split(s)) == [s[0]] + rest[0] + "." + Join(rest[1..]);
      }
      assert [s[0]] + s[1..] == s;
    }
  }

  /** A piece without a dot, followed by a dot, is the first piece of the split. */
  lemma {:induction false} SplitAtDot(a: string, t: string)
    requires '.' !in a
    ensures Split(a + "." + t) == [a] + Split(t)
    ensures Split(a) == [a]
  {
    if a == [] {
      assert a + "." + t == ['.'] + t;
      assert (['.'] + t)[1..] == t;
    } else {
      SplitAtDot(a[1..], t);
      assert (a + "." + t)[1..] == a[1..] + "." + t;
      assert [a[0]] + a[1..] == a;
    }
  }

  /** Splitting undoes Join whenever no piece holds a dot. */
  lemma {:induction false} SplitJoin(pieces: seq<string>)
    requires |pieces| >= 1
    requires forall i :: 0 <= i < |pieces| ==> '.' !in pieces[i]
    ensures Split(Join(pieces)) == pieces
  {
    SplitAtDot(pieces[0], "");
    if |pieces| > 1 {
      SplitJoin(pieces[1..]);
      SplitAtDot(pieces[0], Join(pieces[1..]));
      assert [pieces[0]] + pieces[1..] == pieces;
    }
  }

  // ---------------------------------------------------------------------------
  // The numeric value of one piece

  /** The run of digits `s` starts with (empty when it starts otherwise). */
  function LeadingDigits(s: string): (r: string)
    ensures |r| <= |s| && r == s[..|r|]
    ensures AllDigits(r)
    ensures |r| < |s| ==> !IsDigit(s[|r|])
  {
    if s != [] && IsDigit(s[0]) then [s[0]] + LeadingDigits(s[1..]) else ""
  }

  /** The number a string of decimal digits denotes; the empty string is 0. */
  function DigitsValue(d: string): nat
    requires AllDigits(d)
  {
    if d == [] then 0
    else DigitsValue(d[..|d| - 1]) * 10 + (d[|d| - 1] as int - '0' as int)
  }

  /** The number a piece of a version string stands for: its leading digits,
      and 0 when it does not start with a digit (so "0b123" is 0, "b1" is 0). */
  function PieceValue(piece: string): nat {
    DigitsValue(LeadingDigits(piece))
  }

  /** The decimal notation of `n`, without leading zeros. */
  function NatToString(n: nat): (r: string)
    ensures |r| >= 1 && AllDigits(r)
    ensures '.' !in r
  {
    var last := ['0' + (n % 10) as char];
    if n < 10 then last else NatToString(n / 10) + last
  }

  /** Reading back a written number gives the number. */
  lemma {:induction false} DigitsValueOfNatToString(n: nat)
    ensures DigitsValue(NatToString(n)) == n
  {
    var s := NatToString(n);
    if n >= 10 {
      DigitsValueOfNatToString(n / 10);
      assert s[..|s| - 1] == NatToString(n / 10);
    }
  }

  /** The leading digits of a digit string followed by something that does
      not start with a digit are that digit string. */
  lemma {:induction false} LeadingDigitsOfDigitsThen(d: string, x: string)
    requires AllDigits(d)
    requires x == [] || !IsDigit(x[0])
    ensures LeadingDigits(d + x) == d
  {
    if d != [] {
      LeadingDigitsOfDigitsThen(d[1..], x);
      assert (d + x)[1..] == d[1..] + x;
      assert [d[0]] + d[1..] == d;
    }
  }

  /** A written number followed by a non-numeric tag (such as "b123" or
      "rc2-dev0+7fad31a0") still counts as that number. */
  lemma PieceValueWithSuffix(n: nat, x: string)
    requires x == [] || !IsDigit(x[0])
    ensures PieceValue(NatToString(n) + x) == n
  {
    LeadingDigitsOfDigitsThen(NatToString(n), x);
    DigitsValueOfNatToString(n);
  }

  // ---------------------------------------------------------------------------
  // Parsing and comparing

  /** The value of piece `i`, and 0 for a piece that is missing. */
  function PieceAt(pieces: seq<string>, i: nat): nat {
    if i < |pieces| then PieceValue(pieces[i]) else 0
  }

  /** The version triple a version string denotes: the first three pieces,
      missing ones counted as 0, later ones ignored. */
  function Parse(version: string): Triple {
    var pieces := Split(version);
    Triple(PieceAt(pieces, 0), PieceAt(pieces, 1), PieceAt(pieces, 2))
  }

  /** Lexicographic order on version triples. */
  predicate Less(a: Triple, b: Triple) {
    a.major < b.major
    || (a.major == b.major && a.minor < b.minor)
    || (a.major == b.major && a.minor == b.minor && a.patch < b.patch)
  }

  /** `version_lower_than`: does the version string denote a version older
      than `minimum`? */
  predicate VersionLowerThan(version: string, minimum: Triple) {
    Less(Parse(version), minimum)
  }

  /** The dotted notation "major.minor.patch" of a triple. */
  function Format(t: Triple): string {
    NatToString(t.major) + "." + NatToString(t.minor) + "." + NatToString(t.patch)
  }

  /** The three pieces of Format(t) + x when x holds no dot. */
  lemma SplitFormat(t: Triple, x: string)
    requires '.' !in x
    ensures Split(Format(t) + x)
         == [NatToString(t.major), NatToString(t.minor), NatToString(t.patch) + x]
  {
    var a, b, c := NatToString(t.major), NatToString(t.minor), NatToString(t.patch);
    assert Format(t) + x == a + "." + (b + "." + (c + x));
    assert '.' !in c + x;
    SplitAtDot(a, b + "." + (c + x));
    SplitAtDot(b, c + x);
    SplitAtDot(c + x, "");
  }

  /** A version string written by Format, followed by a tag that does not
      start with a digit and holds no dot, parses back to the triple. With
      x == "" this is the round trip Parse(Format(t)) == t. */
  lemma ParseFormatWithTag(v: string, t: Triple, x: string)
    requires v == Format(t) + x
    requires '.' !in x
    requires x == [] || !IsDigit(x[0])
    ensures Parse(v) == t
  {
    SplitFormat(t, x);
    var pieces := Split(Format(t) + x);
    PieceValueWithSuffix(t.major, "");
    PieceValueWithSuffix(t.minor, "");
    PieceValueWithSuffix(t.patch, x);
    assert NatToString(t.major) + "" == pieces[0];
    assert NatToString(t.minor) + "" == pieces[1];
    assert PieceAt(pieces, 0) == t.major;
    assert PieceAt(pieces, 1) == t.minor;
    assert PieceAt(pieces, 2) == t.patch;
  }

  /** Whatever follows the third piece is ignored. */
  lemma ParseFormatWithExtraPieces(v: string, t: Triple, rest: string)
    requires v == Format(t) + "." + rest
    ensures Parse(v) == t
  {
    var a, b, c := NatToString(t.major), NatToString(t.minor), NatToString(t.patch);
    assert Format(t) + "." + rest == a + "." + (b + "." + (c + "." + rest));
    SplitAtDot(a, b + "." + (c + "." + rest));
    SplitAtDot(b, c + "." + rest);
    SplitAtDot(c, rest);
    PieceValueWithSuffix(t.major, "");
    PieceValueWithSuffix(t.minor, "");
    PieceValueWithSuffix(t.patch, "");
    assert a + "" == a && b + "" == b && c + "" == c;
  }

  /** Missing pieces count as 0: "M" is (M, 0, 0). */
  lemma ParseMajorOnly(v: string, major: nat)
    requires v == NatToString(major)
    ensures Parse(v) == Triple(major, 0, 0)
  {
    SplitAtDot(NatToString(major), "");
    PieceValueWithSuffix(major, "");
    assert NatToString(major) + "" == NatToString(major);
  }

  /** Missing pieces count as 0: "M.m" is (M, m, 0). */
  lemma ParseMajorMinor(v: string, major: nat, minor: nat)
    requires v == NatToString(major) + "." + NatToString(minor)
    ensures Parse(v) == Triple(major, minor, 0)
  {
    var a, b := NatToString(major), NatToString(minor);
    SplitAtDot(a, b);
    SplitAtDot(b, "");
    PieceValueWithSuffix(major, "");
    PieceValueWithSuffix(minor, "");
    assert a + "" == a && b + "" == b;
  }

  /** A third piece that does not start with a digit, such as "b1", counts as
      patch level 0. */
  lemma ParseMajorMinorTag(v: string, major: nat, minor: nat, tag: string)
    requires v == NatToString(major) + "." + NatToString(minor) + "." + tag
    requires '.' !in tag
    requires tag == [] || !IsDigit(tag[0])
    ensures Parse(v) == Triple(major, minor, 0)
  {
    var a, b := NatToString(major), NatToString(minor);
    assert a + "." + b + "." + tag == a + "." + (b + "." + tag);
    SplitAtDot(a, b + "." + tag);
    SplitAtDot(b, tag);
    SplitAtDot(tag, "");
    PieceValueWithSuffix(major, "");
    PieceValueWithSuffix(minor, "");
    assert a + "" == a && b + "" == b;
  }

  // ---------------------------------------------------------------------------
  // The cases the storage tests assert

  lemma ParseExample0_3_0()
    ensures Parse("0.3.0") == Triple(0, 3, 0)
  {
    ParseFormatWithTag("0.3.0", Triple(0, 3, 0), "");
  }

  lemma ParseExample0()
    ensures Parse("0") == Triple(0, 0, 0)
  {
    ParseMajorOnly("0", 0);
  }

  lemma ParseExample0_14()
    ensures Parse("0.14") == Triple(0, 14, 0)
  {
    ParseMajorMinor("0.14", 0, 14);
  }

  lemma ParseExample0_14_1111()
    ensures Parse("0.14.1111") == Triple(0, 14, 1111)
  {
    ParseFormatWithTag("0.14.1111", Triple(0, 14, 1111), "");
  }

  lemma ParseExample0_15_0()
    ensures Parse("0.15.0") == Triple(0, 15, 0)
  {
    ParseFormatWithTag("0.15.0", Triple(0, 15, 0), "");
  }

  lemma ParseExample1_33_0()
    ensures Parse("1.33.0") == Triple(1, 33, 0)
  {
    ParseFormatWithTag("1.33.0", Triple(1, 33, 0), "");
  }

  lemma ParseExample0_15_0b123()
    ensures Parse("0.15.0b123") == Triple(0, 15, 0)
  {
    ParseFormatWithTag("0.15.0b123", Triple(0, 15, 0), "b123");
  }

  lemma ParseExample0_14_0_b1()
    ensures Parse("0.14.0.b1") == Triple(0, 14, 0)
  {
    ParseFormatWithExtraPieces("0.14.0.b1", Triple(0, 14, 0), "b1");
  }

  lemma ParseExample0_15_b1()
    ensures Parse("0.15.b1") == Triple(0, 15, 0)
  {
    ParseMajorMinorTag("0.15.b1", 0, 15, "b1");
  }

  lemma ParseExample0_16_b1()
    ensures Parse("0.16.b1") == Triple(0, 16, 0)
  {
    ParseMajorMinorTag("0.16.b1", 0, 16, "b1");
  }

  lemma ParseExample0_15_0_b2()
    ensures Parse("0.15.0.b2") == Triple(0, 15, 0)
  {
    ParseFormatWithExtraPieces("0.15.0.b2", Triple(0, 15, 0), "b2");
  }

  lemma ParseExample1_2_0rc2()
    ensures Parse("1.2.0rc2-dev0+7fad31a0") == Triple(1, 2, 0)
  {
    ParseFormatWithTag("1.2.0rc2-dev0+7fad31a0", Triple(1, 2, 0), "rc2-dev0+7fad31a0");
  }

  /** Versions older than 0.15.0, including ones with missing pieces and a
      large patch level under a smaller minor. */
  lemma VersionCheckLower()
    ensures VersionLowerThan("0.3.0", Triple(0, 15, 0))
    ensures VersionLowerThan("0", Triple(0, 15, 0))
    ensures VersionLowerThan("0.14", Triple(0, 15, 0))
    ensures VersionLowerThan("0.14.1111", Triple(0, 15, 0))
  {
    ParseExample0_3_0();
    ParseExample0();
    ParseExample0_14();
    ParseExample0_14_1111();
  }

  /** A version equal to or newer than the minimum is not lower. */
  lemma VersionCheckNotLower()
    ensures !VersionLowerThan("0.15.0", Triple(0, 15, 0))
    ensures !VersionLowerThan("1.33.0", Triple(0, 15, 0))
  {
    ParseExample0_15_0();
    ParseExample1_33_0();
  }

  /** A pre-release or build tag does not make a version older. */
  lemma VersionCheckTags()
    ensures !VersionLowerThan("0.15.0b123", Triple(0, 15, 0))
    ensures !VersionLowerThan("0.15.b1", Triple(0, 15, 0))
    ensures !VersionLowerThan("0.16.b1", Triple(0, 15, 0))
    ensures !VersionLowerThan("1.2.0rc2-dev0+7fad31a0", Triple(0, 17, 0))
  {
    ParseExample0_15_0b123();
    ParseExample0_15_b1();
    ParseExample0_16_b1();
    ParseExample1_2_0rc2();
  }

  /** Pieces after the third are ignored. */
  lemma VersionCheckExtraPieces()
    ensures VersionLowerThan("0.14.0.b1", Triple(0, 15, 0))
    ensures !VersionLowerThan("0.15.0.b2", Triple(0, 14, 99))
  {
    ParseExample0_14_0_b1();
    ParseExample0_15_0_b2();
  }

  // ---------------------------------------------------------------------------
  // Properties of the order

  /** Less is a strict total order, so every version is either lower than the
      minimum, equal to it, or newer. */
  lemma LessIsStrictTotalOrder(a: Triple, b: Triple, c: Triple)
    ensures !Less(a, a)
    ensures Less(a, b) && Less(b, c) ==> Less(a, c)
    ensures a == b || Less(a, b) || Less(b, a)
    ensures !(Less(a, b) && Less(b, a))
  {
  }

  /** Comparing only (major, minor): the reading the tests leave open. */
  predicate LessIgnoringPatch(a: Triple, b: Triple) {
    a.major < b.major || (a.major == b.major && a.minor < b.minor)
  }

  /** The two comparison depths disagree exactly when major and minor are
      equal and the patch level is lower. */
  lemma ComparisonDepthMatters(a: Triple, b: Triple)
    ensures Less(a, b) != LessIgnoringPatch(a, b)
        <==> (a.major == b.major && a.minor == b.minor && a.patch < b.patch)
  {
  }

  /** Every case the tests assert also holds when the patch level takes no
      part in the comparison: the tests do not fix the comparison depth. */
  lemma VersionCheckIgnoringPatch()
    ensures LessIgnoringPatch(Parse("0.3.0"), Triple(0, 15, 0))
    ensures LessIgnoringPatch(Parse("0"), Triple(0, 15, 0))
    ensures LessIgnoringPatch(Parse("0.14"), Triple(0, 15, 0))
    ensures LessIgnoringPatch(Parse("0.14.1111"), Triple(0, 15, 0))
    ensures !LessIgnoringPatch(Parse("0.15.0"), Triple(0, 15, 0))
    ensures !LessIgnoringPatch(Parse("1.33.0"), Triple(0, 15, 0))
    ensures !LessIgnoringPatch(Parse("0.15.0b123"), Triple(0, 15, 0))
    ensures LessIgnoringPatch(Parse("0.14.0.b1"), Triple(0, 15, 0))
    ensures !LessIgnoringPatch(Parse("0.15.b1"), Triple(0, 15, 0))
    ensures !LessIgnoringPatch(Parse("0.16.b1"), Triple(0, 15, 0))
    ensures !LessIgnoringPatch(Parse("0.15.0.b2"), Triple(0, 14, 99))
    ensures !LessIgnoringPatch(Parse("1.2.0rc2-dev0+7fad31a0"), Triple(0, 17, 0))
  {
    VersionCheckLower();
    VersionCheckNotLower();
    VersionCheckTags();
    VersionCheckExtraPieces();
  }
}

=== FILE: wrappers.dfy ===
/** Optional values and results with an error, used for lookups that may
    miss and for operations that may fail. */
module Wrappers {

  datatype Option<+T> = None | Some(value: T)

  datatype Result<+T, +E> = Ok(value: T) | Err(error: E)
}

=== FILE: writer.dfy ===
/** What `storage.save` writes: after a header carrying the application's
    version, one flat record per factory element in creation order. Diagram
    items are factory elements too and are written as records of their own
    that refer to their diagram by id; there is no wrapping `canvas` record.
    A reference to an element that is not being saved is left out of the
    record (and reported); the element itself is still written. */
module Writer {
  import opened Wrappers
  import opened Elements

  /** One record of a model file: the element's id and type tag, its scalar
      attributes, its references by id and, per handle, the id of the item
      the handle is connected to. */
  datatype Record = Record(
    id: Id,
    tag: TypeTag,
    attributes: map<string, string>,
    refs: map<string, RefValue>,
    handles: seq<Option<Id>>)

  /** A model file: the `gaphor-version` header and the records. */
  datatype Document = Document(version: string, records: seq<Record>)

  /** What is written for handle `h`: the connected item, unless the handle is
      unconnected or connected to something that is not being saved. */
  function HandleTarget(g: Graph, h: Handle): Option<Id> {
    if h in g.connections && g.connections[h] in g.elements then Some(g.connections[h]) else None
  }

  /** The handle connections written for the first `n` handles of item `x`. */
  function HandleTargets(g: Graph, x: Id, n: nat): (r: seq<Option<Id>>)
    ensures |r| == n
    ensures forall i :: 0 <= i < n ==> r[i] == HandleTarget(g, Handle(x, i))
  {
    if n == 0 then [] else HandleTargets(g, x, n - 1) + [HandleTarget(g, Handle(x, n - 1))]
  }

  /** The record written for element `x`. */
  function RecordOf(g: Graph, x: Id): Record
    requires x in g.elements
  {
    var e := g.elements[x];
    Record(x, e.tag, e.attributes, ResolveRefs(e.refs, g.elements.Keys),
           HandleTargets(g, x, e.handleCount))
  }

  /** The records written for the elements `ids`, in that order. */
  function Records(g: Graph, ids: seq<Id>): (r: seq<Record>)
    requires forall i :: 0 <= i < |ids| ==> ids[i] in g.elements
    ensures |r| == |ids|
    ensures forall i :: 0 <= i < |ids| ==> r[i] == RecordOf(g, ids[i])
  {
    if ids == [] then []
    else Records(g, ids[..|ids| - 1]) + [RecordOf(g, ids[|ids| - 1])]
  }

  /** The model file `save` writes for the factory content `g`. */
  function SaveDocument(g: Graph, version: string): Document
    requires Valid(g)
  {
    Document(version, Records(g, g.order))
  }

  /** Does element `x` hold a reference or a handle connection to something
      outside the graph? This is what makes `save` log "Model has unknown
      reference". */
  predicate Dangles(g: Graph, x: Id)
    requires x in g.elements
  {
    var e := g.elements[x];
    || !RefsKnown(e.refs, g.elements.Keys)
    || exists i :: 0 <= i < e.handleCount
                   && Handle(x, i) in g.connections && g.connections[Handle(x, i)] !in g.elements
  }

  /** Save reports an unknown reference exactly when the graph is not closed. */
  lemma DanglesIffNotClosed(g: Graph)
    requires Valid(g)
    ensures (exists i :: 0 <= i < |g.order| && Dangles(g, g.order[i])) <==> !Closed(g)
  {
    if !Closed(g) {
      if exists x :: x in g.elements && !RefsKnown(g.elements[x].refs, g.elements.Keys) {
        var x :| x in g.elements && !RefsKnown(g.elements[x].refs, g.elements.Keys);
        var i :| 0 <= i < |g.order| && g.order[i] == x;
        assert Dangles(g, g.order[i]);
      } else {
        var h :| h in g.connections && g.connections[h] !in g.elements;
        var i :| 0 <= i < |g.order| && g.order[i] == h.item;
        assert Handle(h.item, h.index) == h;
        assert Dangles(g, g.order[i]);
      }
    }
  }

  // ---------------------------------------------------------------------------
  // What the tests assert about the written file

  /** Does record `r` mention id `x`, as its own id, as a reference or as a
      handle connection? */
  predicate Mentions(r: Record, x: Id) {
    || r.id == x
    || (exists a :: a in r.refs && (r.refs[a] == Single(x) || (r.refs[a].Many? && x in r.refs[a].targets)))
    || (exists i :: 0 <= i < |r.handles| && r.handles[i] == Some(x))
  }

  /** One record per factory element, in creation order, carrying that
      element's type tag, attributes and handle count, and no other record
      (in particular no `canvas` wrapper around diagram items). */
  lemma SaveWritesEveryElementOnce(g: Graph, version: string)
    requires Valid(g)
    ensures var doc := SaveDocument(g, version);
      && doc.version == version
      && |doc.records| == |g.order|
      && (forall i :: 0 <= i < |g.order| ==>
            && doc.records[i].id == g.order[i]
            && doc.records[i].tag == g.elements[g.order[i]].tag
            && doc.records[i].attributes == g.elements[g.order[i]].attributes
            && |doc.records[i].handles| == g.elements[g.order[i]].handleCount)
      && (forall i, j :: 0 <= i < j < |doc.records| ==> doc.records[i].id != doc.records[j].id)
      && (forall i :: 0 <= i < |doc.records| ==> doc.records[i].id in g.elements)
  {
  }

  /** Every id a written record mentions is the id of an element of the graph,
      so it is written too: no written reference dangles. */
  lemma SaveReferencesStayInside(g: Graph, version: string, i: nat, x: Id)
    requires Valid(g)
    requires i < |g.order|
    requires Mentions(SaveDocument(g, version).records[i], x)
    ensures x in g.elements
  {
    var r := SaveDocument(g, version).records[i];
    assert r == RecordOf(g, g.order[i]);
    if exists a :: a in r.refs && (r.refs[a] == Single(x) || (r.refs[a].Many? && x in r.refs[a].targets)) {
      var a :| a in r.refs && (r.refs[a] == Single(x) || (r.refs[a].Many? && x in r.refs[a].targets));
      assert RefKnown(r.refs[a], g.elements.Keys);
    }
  }

  /** Both tests of references to outside elements: an element that
      references an element outside the factory (or whose collection holds
      one) is still written, and the outside element's id appears nowhere in
      the file. In the invalid-collection test a class inside the factory
      holds a single `package` reference to a package outside it, which
      leaves the graph not closed, so save reports an unknown reference. */
  lemma SaveOmitsOutsideElement(g: Graph, version: string, inside: Id, outside: Id)
    requires Valid(g)
    requires inside in g.elements && outside !in g.elements
    ensures exists i :: 0 <= i < |SaveDocument(g, version).records|
                        && SaveDocument(g, version).records[i].id == inside
    ensures forall i :: 0 <= i < |SaveDocument(g, version).records|
                        ==> !Mentions(SaveDocument(g, version).records[i], outside)
    ensures (exists a :: a in g.elements[inside].refs && g.elements[inside].refs[a] == Single(outside))
            ==> !Closed(g)
  {
    if exists a :: a in g.elements[inside].refs && g.elements[inside].refs[a] == Single(outside) {
      var a :| a in g.elements[inside].refs && g.elements[inside].refs[a] == Single(outside);
      assert !RefKnown(g.elements[inside].refs[a], g.elements.Keys);
    }
    var doc := SaveDocument(g, version);
    var k :| 0 <= k < |g.order| && g.order[k] == inside;
    assert doc.records[k].id == inside;
    forall i | 0 <= i < |doc.records|
      ensures !Mentions(doc.records[i], outside)
    {
      if Mentions(doc.records[i], outside) {
        SaveReferencesStayInside(g, version, i, outside);
      }
    }
  }

  /** The invalid-reference test: assigning a package inside the factory to
      a class outside it also fills the package's collection, so the factory
      element `p` holds the outside id `c` in its collection `a`. Then `p` is
      written, `c` appears in no record, and the graph is not closed, so
      save reports an unknown reference. */
  lemma SaveWithInvalidReference(g: Graph, version: string, p: Id, c: Id, a: string)
    requires Valid(g)
    requires p in g.elements && c !in g.elements
    requires a in g.elements[p].refs && g.elements[p].refs[a].Many? && c in g.elements[p].refs[a].targets
    ensures !Closed(g)
    ensures exists i :: 0 <= i < |SaveDocument(g, version).records|
                        && SaveDocument(g, version).records[i].id == p
    ensures forall i :: 0 <= i < |SaveDocument(g, version).records|
                        ==> !Mentions(SaveDocument(g, version).records[i], c)
  {
    SaveOmitsOutsideElement(g, version, p, c);
    assert !RefKnown(g.elements[p].refs[a], g.elements.Keys);
  }
}
